=== FILE: README.md ===
# HopEnglish TTS generator — a verified model of its core

The generator (`scripts/tts-generator/index.js`) reads a word list and asks a
speech service for a recording of each word. It writes the recording as a PCM
WAV file and keeps success, skipped and failed counts. This project models the
logic under its HTTP and CLI code in Dafny and proves properties of that model.

The modules follow the source:

- `Wav` (wav.dfy): the 44-byte RIFF/WAVE header written field by field into a
  buffer (`createWavHeader`), and `convertToWav`. A reader of canonical
  headers shows that every field reads back as written.
- `Mime` (mime.dfy): `parseAudioMimeType`. It parses content types such as
  `audio/L16;codec=pcm;rate=24000` and falls back to mono, 24000 Hz, 16 bits.
- `Classify` (classify.dfy): how one POST ends.
  - the status classification of `postJson` (2xx, 429, 4xx, 5xx, others, transport failures);
  - the audio payload check of `requestTextToSpeech`.
- `Keys` (keys.dfy): the key-rotation state. A pure `KeyRing` value
  specifies each operation. The `KeyManager` class holds the module-level
  `apiKeys`, `currentKeyIndex` and `keyFailureCount` and is proved against
  `KeyRing`.
- `Retry` (retry.dfy): `calculateBackoffDelay` and the `requestTextToSpeech` loop.
  - `Step` is one pass of the loop; `RunScript` runs it over a finite script of answers.
  - The method `RequestTextToSpeech` updates a `KeyManager` in place and is proved equal to `RunScript`.
- `Batch` (batch.dfy): `extractWords`, and the per-word loop of `main`.
  - The loop updates a `Stats` object in place, with the output directory as a map from file name to contents.
- `Text`, `Json` and `Wrappers` hold the JavaScript string operations and parsed JSON values the rest relies on.
  - The string operations are `trim`, `split`, `parseInt` and number printing.
  - Optional chaining and `??` are modelled on the parsed JSON values.

Where the behaviour differs from a plain reading of the code, the model follows the code, with one exception. The request loop classifies errors with the corrected `Classify.PostJson` described under "## Findings". The code as written is modelled beside it, as `Classify.PostJsonAsWritten`. Otherwise:

- A header field that does not fit its 16- or 32-bit slot is not excluded by a precondition. Node's `writeUInt16LE`/`writeUInt32LE` throw a `RangeError`, so `createWavHeader` and `convertToWav` return an error naming the offset of the first field that does not fit.
- A sample size that is not a whole number of bytes gives a fractional `byteRate`/`blockAlign`. The buffer write stores only its integer part, and the model does the same.
- `parseInt` skips leading white space and reads an optional sign before the digits.

## Model

| member | source | states |
|---|---|---|
| Text.Trim | scripts/tts-generator/index.js:387 | the result is no longer than the input, has no white space at either end, and is empty exactly when the input is all white space |
| Text.TrimStartShape | scripts/tts-generator/index.js:387 | trimming the front removes exactly the white space before the first other character |
| Text.TrimEndShape | scripts/tts-generator/index.js:387 | trimming the end removes exactly the white space after the last other character |
| Text.TrimShape | scripts/tts-generator/index.js:387 | `trim` keeps one contiguous piece of the string, drops only white space around it and leaves none at either end |
| Text.TrimIdempotent | scripts/tts-generator/index.js:446-448 | trimming a trimmed string changes nothing |
| Text.TrimNoSpaceEnds | scripts/tts-generator/index.js:387 | a string with no white space at its ends is unchanged by `trim` |
| Text.Split | scripts/tts-generator/index.js:387-388 | `split` gives at least one piece and no piece contains the separator |
| Text.JoinSplit | scripts/tts-generator/index.js:387-388 | joining the pieces with the separator gives the string back |
| Text.SplitJoin | scripts/tts-generator/index.js:387 | splitting separator-free pieces joined by the separator gives the pieces back |
| Text.SplitWithoutSeparator | scripts/tts-generator/index.js:388-389 | a string without the separator splits into itself alone (a type without `/` has no subtype) |
| Text.SplitAtFirstSeparator | scripts/tts-generator/index.js:396 | the first piece ends at the first separator and the rest is split on |
| Text.LeadingDigits | scripts/tts-generator/index.js:392 | the digit run `parseInt` reads is all digits |
| Text.LeadingDigitsShape | scripts/tts-generator/index.js:392 | the digit run is a prefix and stops at the first non-digit |
| Text.LeadingDigitsOfDigits | scripts/tts-generator/index.js:398 | a string of digits is read whole |
| Text.Digit | scripts/tts-generator/index.js:228 | the printed digit has the digit's value |
| Text.NatToString | scripts/tts-generator/index.js:228 | a printed number is a non-empty run of digits with the number's value and no leading zero |
| Text.ParseInt | scripts/tts-generator/index.js:392 | a string of digits is read as its decimal value (the empty string as `NaN`), and text that starts with anything but white space, a sign or a digit is `NaN` |
| Text.ParseDigits | scripts/tts-generator/index.js:392 | the digit run after the sign gives a number exactly when it starts with a digit |
| Text.ParseIntAfterSpace | scripts/tts-generator/index.js:392 | leading white space does not change what `parseInt` reads |
| Text.ParseIntAt | scripts/tts-generator/index.js:392-398 | after leading white space and an optional sign, `parseInt` reads the digit run up to the first non-digit as its decimal value, negated after `-`, and ignores whatever follows |
| Text.ParseIntNoDigits | scripts/tts-generator/index.js:392 | white space and a sign followed by no digit read as `NaN` |
| Text.ParseIntTrailingText | scripts/tts-generator/index.js:398 | `"16abc"` reads as 16 |
| Text.ParseIntSpaceAndSign | scripts/tts-generator/index.js:392 | `" -7 kHz"` reads as -7 |
| Text.ParseIntNatToString | scripts/tts-generator/index.js:392 | `parseInt` reads a printed number back exactly |
| Mime.Segments | scripts/tts-generator/index.js:387 | a content type always has a first segment |
| Mime.LastRateStep | scripts/tts-generator/index.js:395-401 | each parameter in turn overwrites the rate only when it is a numeric `rate` |
| Mime.ParseAudioMimeType | scripts/tts-generator/index.js:384-403 | the loop over the parameters returns the format `MimeFormat` gives |
| Mime.DefaultsAndMono | scripts/tts-generator/index.js:385-386 | a missing or empty type gives 1 / 24000 / 16, and the channel count is always 1 |
| Mime.OnlyLSubtypeSetsBits | scripts/tts-generator/index.js:391-394 | only an `L` subtype can change the sample width |
| Mime.RateComesFromParam | scripts/tts-generator/index.js:395-401 | a rate other than the default comes from a `rate` parameter, and without one the default stays |
| Mime.LastRateWins | scripts/tts-generator/index.js:395-401 | the last numeric `rate` parameter decides the rate |
| Mime.LastRateIgnoresOtherParams | scripts/tts-generator/index.js:395-401 | parameters other than a numeric `rate` leave the rate alone |
| Mime.RateParamOfPrinted | scripts/tts-generator/index.js:396-399 | `rate=<n>` is read as `n` |
| Mime.SubtypeBitsOfPrinted | scripts/tts-generator/index.js:388-393 | `audio/L<n>` is read as `n` bits |
| Mime.FormatOfSegments | scripts/tts-generator/index.js:387-401 | a type made of clean segments gives the subtype's width and the parameters' last rate |
| Mime.ParsePrintedMimeType | scripts/tts-generator/index.js:384-403 | `audio/L<b>;rate=<r>` parses back to 1 channel, rate `r`, `b` bits |
| Mime.LastRateOfPrinted | scripts/tts-generator/index.js:395-401 | a trailing `rate=<r>` decides the rate whatever precedes it |
| Mime.ParsePrintedWithParam | scripts/tts-generator/index.js:384-403 | an extra parameter such as `codec=pcm` does not disturb the parse |
| Mime.ShortServiceMimeType | scripts/tts-generator/index.js:384-403 | `audio/L16;rate=24000` gives 1 / 24000 / 16 |
| Mime.ServiceMimeType | scripts/tts-generator/index.js:384-403 | `audio/L16;codec=pcm;rate=24000` gives 1 / 24000 / 16 |
| Wav.Ascii | scripts/tts-generator/index.js:410 | a tag is one byte per character |
| Wav.LE16 | scripts/tts-generator/index.js:415 | a 16-bit field is two bytes |
| Wav.LE32 | scripts/tts-generator/index.js:411 | a 32-bit field is four bytes |
| Wav.LE16RoundTrip | scripts/tts-generator/index.js:415-420 | reading a written 16-bit little-endian field gives the value back |
| Wav.LE32RoundTrip | scripts/tts-generator/index.js:411-422 | reading a written 32-bit little-endian field gives the value back |
| Wav.FloorOfEighth | scripts/tts-generator/index.js:407-408 | the integer part of `n / 8` is integer division by 8 |
| Wav.FieldsInRange | scripts/tts-generator/index.js:407-408 | when the fmt fields fit, the stored byte rate and block alignment (`ByteRate`, `BlockAlign`) are the integer parts of the JavaScript quotients and fit their slots |
| Wav.HeaderLayout | scripts/tts-generator/index.js:405-423 | the header is 44 bytes with every tag and field at its offset |
| Wav.FixedFieldsOfHeader | scripts/tts-generator/index.js:410-415 | the tags, `36 + dataLength`, 16, the PCM tag 1 and `dataLength` read back from their offsets |
| Wav.FormatFieldsOfHeader | scripts/tts-generator/index.js:416-420 | channels, rate, byte rate, block alignment and width read back from offsets 22–34 |
| Wav.ReadWavOfWavBytes | scripts/tts-generator/index.js:426-431 | reading the framed file gives the format, the derived rates and the samples exactly |
| Wav.WholeByteRatesExact | scripts/tts-generator/index.js:407-408 | for whole-byte frames the stored rates equal `R*C*B/8` and `C*B/8` exactly |
| Wav.WriteAscii | scripts/tts-generator/index.js:410 | writing a tag changes only its bytes |
| Wav.WriteUInt16LE | scripts/tts-generator/index.js:415 | the write throws exactly when the value is out of range, leaving the buffer unchanged, and otherwise stores its integer part there and nothing else |
| Wav.WriteUInt32LE | scripts/tts-generator/index.js:411 | the same for 32-bit fields |
| Wav.AppendAscii | scripts/tts-generator/index.js:410-421 | writing a tag at the end of the header written so far extends it |
| Wav.AppendUInt16LE | scripts/tts-generator/index.js:415-420 | a 16-bit field written next extends the header, or the write throws |
| Wav.AppendUInt32LE | scripts/tts-generator/index.js:411-422 | a 32-bit field written next extends the header, or the write throws |
| Wav.FmtChunkAfter | scripts/tts-generator/index.js:413-420 | the fields written one by one make up the fmt chunk |
| Wav.WriteChannelsAndRate | scripts/tts-generator/index.js:416-417 | channels then rate, failing at the first that does not fit |
| Wav.WriteDerivedFields | scripts/tts-generator/index.js:418-420 | byte rate, block alignment and width, failing at the first that does not fit |
| Wav.WriteFmtChunk | scripts/tts-generator/index.js:413-420 | the fmt chunk is written, or the offset of its first field out of range is returned |
| Wav.CreateWavHeader | scripts/tts-generator/index.js:405-424 | a fresh 44-byte buffer holding the header, or the range error of the first field that does not fit |
| Wav.ConvertToWav | scripts/tts-generator/index.js:426-431 | the header followed by the samples unchanged: `44 + \|raw\|` bytes that read back as format and samples |
| Json.Member | scripts/tts-generator/index.js:324-330 | `a?.b` is defined exactly for an object that has the key |
| Json.First | scripts/tts-generator/index.js:324 | `a?.[0]` is defined only on an array, an object or a string; an array or a string gives a value exactly when it is not empty, and a string gives its first character |
| Json.AsString | scripts/tts-generator/index.js:326-330 | the string is taken exactly when the value is a string |
| Classify.Prefix | scripts/tts-generator/index.js:228-236 | `slice(0, n)` is a prefix: the whole string when it has at most `n` characters, otherwise its first `n` characters |
| Classify.PostJson | scripts/tts-generator/index.js:214-242 | 2xx is success with the body; 429 is a rate limit; other 4xx are fatal and carry the status; 5xx, other statuses and transport failures are retryable (each an if-and-only-if); the message text is the code's own wherever `errorMsg.slice` does not throw (see `AsWrittenAgrees`) |
| Classify.PostJsonAsWritten | scripts/tts-generator/index.js:214-242 | as written, a 2xx is success with the body and a 429 a rate limit; any other status ends in the retryable `TypeError` exactly when `errorMsg` has no `slice` (a truthy number, `true` or an object), and is fatal exactly when it is a 4xx and `errorMsg` is a string or an array |
| Classify.ArrayMessageFatal | scripts/tts-generator/index.js:219-233 | a 4xx other than 429 whose `error.message` is an array is fatal, with the first 500 items joined by commas as the detail, as written and in `PostJson` alike |
| Classify.AsWrittenAgrees | scripts/tts-generator/index.js:218-242 | wherever `errorMsg.slice` does not throw, the code as written and `PostJson` give the same result, message text included; where it throws, the code as written retries with the `TypeError` and `PostJson` classifies by status with the body text as the detail |
| Classify.NumericMessageRetried | scripts/tts-generator/index.js:219-242 | a 4xx other than 429 whose `error.message` is 42 is retried as written but fatal by its status |
| Classify.HttpErrorMessage | scripts/tts-generator/index.js:219-236 | an HTTP error message is `HTTP <status>: ` then the detail with limit 200 (500 for fatal): `Prefix` of a string `error.message`, the first `limit` items of an array message joined by commas, and otherwise `Prefix` of the body text |
| Classify.ServiceMessagePreferred | scripts/tts-generator/index.js:219 | a non-empty string or an array `error.message` wins over the raw body text; an empty message or a body without one gives the body text |
| Classify.ExtractAudio | scripts/tts-generator/index.js:324-334 | success exactly when the `data` of `candidates[0].content.parts[0].inlineData ?? inline_data` is a non-empty string; the audio is that string and the type is its `mimeType`, or else `mime_type`, when a string; otherwise the retryable missing-audio error |
| Classify.NoCandidatesIsRetryable | scripts/tts-generator/index.js:322-334 | a body without `candidates` is the retryable missing-audio error |
| Classify.NumericDataIsRetryable | scripts/tts-generator/index.js:326-334 | a payload whose `data` is a number is the retryable missing-audio error |
| Classify.CamelCaseWins | scripts/tts-generator/index.js:325 | `inlineData` is the payload unless it is null, even when `inline_data` is present too |
| Classify.Attempt | scripts/tts-generator/index.js:322-336 | audio only from a 2xx response with a payload; otherwise the classified error |
| Classify.SuccessStatusNeverFails | scripts/tts-generator/index.js:332-334 | a 2xx answer is audio or the retryable missing-audio error, never fatal |
| Classify.CamelCaseAudio | scripts/tts-generator/index.js:324-336 | `inlineData`/`mimeType` payloads are returned with their type |
| Classify.SnakeCaseAudio | scripts/tts-generator/index.js:324-336 | `inline_data`/`mime_type` payloads are returned too |
| Classify.EmptyAudioIsRetryable | scripts/tts-generator/index.js:332-334 | an empty audio string is retried |
| Keys.ZeroCounts | scripts/tts-generator/index.js:140-141 | every key index and nothing else, each mapped to 0 |
| Keys.Initial | scripts/tts-generator/index.js:43-45 | the start state is well formed, on key 0, with no failures |
| Keys.Rotate | scripts/tts-generator/index.js:125-129 | the index advances by one and wraps after the last key; the counts stay |
| Keys.MarkFailed | scripts/tts-generator/index.js:135-138 | only the current key's count grows, by one (a missing count reads as 0) |
| Keys.ResetAll | scripts/tts-generator/index.js:140-143 | every key's count becomes 0, and the state has no failures |
| Keys.RotateTimesAdvances | scripts/tts-generator/index.js:125-129 | `n` rotations advance the index by `n` modulo the key count |
| Keys.RotateAt | scripts/tts-generator/index.js:127 | one rotation from key `c` gives `(c + 1) mod size` |
| Keys.RotateTimesStep | scripts/tts-generator/index.js:127 | a further rotation adds one modulo the key count |
| Keys.RotationCycles | scripts/tts-generator/index.js:125-129 | rotating once per key visits every key and comes back |
| Keys.MarkFailedAllFailed | scripts/tts-generator/index.js:131-138 | after a mark, all keys are failed exactly when every other key already was |
| Keys.KeyManager.constructor | scripts/tts-generator/index.js:75-81 | the manager starts in the initial state for its keys |
| Keys.KeyManager.CurrentApiKey | scripts/tts-generator/index.js:121-123 | the current key is the key at the current index, and so one of the keys |
| Keys.KeyManager.RotateToNextApiKey | scripts/tts-generator/index.js:125-129 | the state becomes `Rotate` of the old state and stays valid |
| Keys.KeyManager.MarkCurrentKeyAsFailed | scripts/tts-generator/index.js:135-138 | the state becomes `MarkFailed` of the old state and stays valid |
| Keys.KeyManager.AreAllKeysFailed | scripts/tts-generator/index.js:131-133 | true exactly when every recorded count is positive |
| Keys.KeyManager.ResetAllKeyFailures | scripts/tts-generator/index.js:140-143 | the state becomes `ResetAll` of the old state |
| Retry.Pow2 | scripts/tts-generator/index.js:171 | a power of two is at least 1 |
| Retry.CalculateBackoffDelay | scripts/tts-generator/index.js:170-173 | the delay lies between 10 s and 5 min and is either the cap or `10000 * 2^attempt` |
| Retry.Pow2Monotone | scripts/tts-generator/index.js:171 | powers of two grow with the exponent |
| Retry.BackoffMonotone | scripts/tts-generator/index.js:170-173 | a later retry never waits less |
| Retry.BackoffSchedule | scripts/tts-generator/index.js:170-173 | 10, 20, 40, 80, 160 seconds, then 300 seconds from the sixth retry on |
| Retry.Step | scripts/tts-generator/index.js:337-376 | audio returns and a fatal error is thrown (each an if-and-only-if); everything else continues with a well-formed key state |
| Retry.RunScript | scripts/tts-generator/index.js:302-378 | the key state stays well formed, and every key used is a valid index, one per answer at most |
| Retry.Then | scripts/tts-generator/index.js:305-377 | the same after one step |
| Retry.FatalEndsAtOnce | scripts/tts-generator/index.js:355-358 | a fatal error is thrown at once, with no sleep and the keys untouched |
| Retry.SuccessEndsAtOnce | scripts/tts-generator/index.js:336 | audio is returned at once with no sleep and the keys untouched |
| Retry.RateLimitStep | scripts/tts-generator/index.js:339-353 | a rate limit marks the key; when every other key was already failed it sleeps a minute and resets; it always rotates and sets the retry counter to 0 |
| Retry.RetryableStep | scripts/tts-generator/index.js:361-368 | a retryable error sleeps `calculateBackoffDelay(retryAttempt)` and counts one more retry on the same key |
| Retry.SleepsBounded | scripts/tts-generator/index.js:346-366 | every sleep of a run lies between 10 s and 5 min |
| Retry.RetryableRun | scripts/tts-generator/index.js:361-368 | consecutive retryable errors sleep the backoff for attempts `a, a+1, …` on one key and never end the loop |
| Retry.RetryableRunFromStart | scripts/tts-generator/index.js:362-366 | from a fresh start they sleep 10, 20, 40, 80, 160 s, then 300 s each |
| Retry.MarkedCounts | scripts/tts-generator/index.js:135-138 | the counts after the first `k` keys were each rate limited once |
| Retry.Marked | scripts/tts-generator/index.js:135-138 | that state is well formed |
| Retry.RateLimitFromMarked | scripts/tts-generator/index.js:339-353 | a rate limit on key `k` marks it and moves on, or after the last key sleeps a minute and returns to the start state |
| Retry.RateLimitRunStep | scripts/tts-generator/index.js:339-353 | a rate limit before the last key uses the key and continues on the next without sleeping |
| Retry.RateLimitRun | scripts/tts-generator/index.js:339-353 | rate limits on keys `j, j+1, …` before the last use them in order without sleeping |
| Retry.RunScriptAppend | scripts/tts-generator/index.js:305-377 | running two scripts one after the other is running their concatenation |
| Retry.RateLimitRunToEnd | scripts/tts-generator/index.js:339-353 | rate limits up to the last key end with one one-minute sleep and the start state |
| Retry.RateLimitEveryKey | scripts/tts-generator/index.js:339-353 | one rate limit per key from the start uses every key once in order, sleeps one minute and resets |
| Retry.TwoKeysTwoRateLimits | scripts/tts-generator/index.js:339-353 | with two keys: 0→1, then a cool-down, a reset and back to 0 |
| Retry.HandleError | scripts/tts-generator/index.js:337-376 | the `catch` block moves the manager and the retry counter exactly as `Step` does, with its sleeps |
| Retry.RunPrefixStep | scripts/tts-generator/index.js:305-377 | one more pass of the loop extends the run of the answers so far |
| Retry.RequestTextToSpeech | scripts/tts-generator/index.js:302-378 | the loop returns, throws or is still running exactly as `RunScript` says, with its sleeps, its keys in order and the final key state |
| Batch.ExtractWords | scripts/tts-generator/index.js:437-452 | the nested loops return `ExtractedWords`: the words of every category in order; a non-array top level is the error |
| Batch.WordOfClean | scripts/tts-generator/index.js:444-448 | a kept id and name are non-empty and trimmed |
| Batch.WordsOfComplete | scripts/tts-generator/index.js:443-448 | every entry that yields a word contributes it |
| Batch.WordsOfSource | scripts/tts-generator/index.js:443-448 | every kept word comes from some entry |
| Batch.WordsOfLength | scripts/tts-generator/index.js:443-448 | no more words than entries |
| Batch.AllWordsComplete | scripts/tts-generator/index.js:440-449 | every word any category's entry yields is extracted |
| Batch.AllWordsSource | scripts/tts-generator/index.js:440-449 | every extracted word is clean and comes from an entry of some category |
| Batch.WordsOfAppend | scripts/tts-generator/index.js:443-448 | entries keep their order |
| Batch.AllWordsAppend | scripts/tts-generator/index.js:440-449 | categories keep their order |
| Batch.ExtractWordsExample | scripts/tts-generator/index.js:437-452 | padded ids are trimmed, blank ids and non-string names drop the entry, non-object categories add nothing, an object top level is the error |
| Batch.EntryExamples | scripts/tts-generator/index.js:444-448 | the entry-level cases of that example |
| Batch.Pass | scripts/tts-generator/index.js:494-533 | after `n` words, success + skipped + failed = `n` and `failedWords` has one entry per failure; each requested word is followed by one pause except possibly the last |
| Batch.PassSleeps | scripts/tts-generator/index.js:529-532 | every pause is 7000 ms |
| Batch.VisitTally | scripts/tts-generator/index.js:495-532 | one word is settled exactly once: one count grows by one, `skipped` exactly when its file `<id>_normal.wav` (`FileName`) exists, `failed` exactly when that file is missing and the request or framing fails, and then the word's id, name and cause are appended to the failed words; a success stores the WAV bytes under that file name and changes no other file; otherwise the directory is unchanged; a pause follows each requested word but the last |
| Batch.VisitWrittenReadsBack | scripts/tts-generator/index.js:510-518 | the file a turn writes for a word holds bytes that read back as the reply's samples in the format its content type gives |
| Batch.VisitKeepsFiles | scripts/tts-generator/index.js:496-521 | one word never removes or overwrites a file |
| Batch.PassKeepsFiles | scripts/tts-generator/index.js:494-533 | a file present at any point stays, unchanged, to the end |
| Batch.WrittenFileReadsBack | scripts/tts-generator/index.js:517-518 | a written file reads back as the word's samples in the format its content type gives |
| Batch.RepeatedIdSkipped | scripts/tts-generator/index.js:496-502 | a word whose id repeats an earlier word that was written or skipped is skipped |
| Batch.AllPresentAllSkipped | scripts/tts-generator/index.js:498-503 | when every file exists, every word is skipped with no request and no pause |
| Batch.AllThrownAllFailed | scripts/tts-generator/index.js:521-532 | when every request throws, every word fails in order and a pause follows each word but the last |
| Batch.Stats.constructor | scripts/tts-generator/index.js:48-53 | the statistics start at zero |
| Batch.GenerateAll | scripts/tts-generator/index.js:494-533 | the loop leaves `stats`, the directory and the pauses as `Pass` says |

## Findings

| source | as written | input that shows it | evidently intended | confidence | as-written member | corrected member |
|---|---|---|---|---|---|---|
| scripts/tts-generator/index.js:219-242 | `errorMsg` keeps an `error.message` that is a number, `true` or an object, and then `errorMsg.slice` throws a `TypeError`, since such a value has no `slice` (strings and arrays do). The `catch` block turns that into a retryable error, so a 4xx other than 429 is retried for ever instead of failing the word | status 400 with body `{"error":{"message":42}}` (`Classify.NumericMessageRetried`) | the status alone decides: every 4xx other than 429 is fatal, with the body text as the detail when the message is not a string or an array | medium, not executed | Classify.PostJsonAsWritten | Classify.PostJson |

## Left out

- HTTP transport is a parameter of the model: `got.post`, timeouts, the proxy agent and the proxy lookup. What the client produced for one POST is an input, `Transport`.
- The JSON request body and the URL are left out. Only the key used for each request is recorded.
- Real timers are not modelled. `sleep` becomes a recorded delay, and `Date.now` and the run duration are left out.
- File system work is a parameter:
  - the output directory is a map from file name to contents;
  - `isFileExists` is a membership test;
  - `writeFile` is an update that always succeeds;
  - `readFile` and `mkdir` are left out.
- The path is not normalised: `path.join` with an id holding `/` or `..` is not modelled.
- `JSON.parse` of the categories file and base64 decoding of the audio are library calls. The model starts from parsed JSON values and decoded bytes.
- Each word's request is an input to the batch loop, `Reply`: decoded audio with its content type, or the error that escaped the retry loop. The retry loop itself is modelled in `Retry`.
- The Commander CLI, `process.exit`, environment defaults and the `--api-key` split/trim/filter are left out. The key manager starts from a non-empty key list.
- The prompt templates, `formatDuration`, the final summary and all console output are left out. They only produce log text.
- Retry.RequestTextToSpeech: the source loops forever on rate limits and retryable errors. The model runs over a finite script of answers and reports `None` when the script runs out while the loop would still go on.
- Retry.Step: the source also catches errors of unknown type. One can reach it: building the `HttpsProxyAgent` for a proxy URL runs before `postJson`'s `try` block, so an error thrown there escapes unwrapped. That branch behaves like the retryable one: it counts one more retry and sleeps `calculateBackoffDelay` of the previous count. The model folds such an error into a `TransportFailure`, which `postJson` classifies as retryable.
- Classify.Attempt: classifies with the corrected `PostJson`, not `PostJsonAsWritten`. A 4xx other than 429 whose `error.message` is a number, `true` or an object is fatal here, where the code as written retries it. For every other answer the two agree, message text included.
- Retry.RequestTextToSpeech: its answers are classified by `Classify.Attempt`, so the same 4xx ends the loop with a `FatalError`, where the code as written retries it for ever.
- Classify.Prefix: JavaScript `slice` counts UTF-16 code units and the model counts characters. A message with characters outside the Basic Multilingual Plane is cut at a different place. `Json.First` reads the first character of a string, not its first code unit, for the same reason.
- Classify.PostJson: a transport failure's message is taken as given. The `String(err)` fallback for errors without a message is not modelled.
- The `failedWords` entries: the source records `err.message`. For a header range error the model records the offset of the field instead of Node's message text.
- Wav.ConvertToWav: the typed-array and `Buffer.concat` allocation is modelled as sequence concatenation. Only the header buffer is an array.
- JavaScript numbers are mathematical integers, or reals for the byte rate division. Precision loss above 2^53 is not modelled, nor the exponent form JavaScript prints for numbers from 10^21 on.
- `parseInt` models leading white space, a sign and decimal digits. It does not model `-0`, or the `Infinity` result of very long digit runs.

=== FILE: batch.dfy ===
/**
 * The batch side of the generator: the word list read from the categories
 * file, and the pass over it that skips words whose file already exists,
 * requests and frames the audio of the others, pauses between requests and
 * keeps the success / skipped / failed statistics.
 */
module Batch {
  import opened Wrappers
  import opened Text
  import opened Json
  import opened Classify
  import opened Mime
  import opened Wav

  /** One word to speak: its identifier (the file name stem) and the text to say. */
  datatype Word = Word(id: string, name: string)

  const TOP_LEVEL_NOT_ARRAY := "categories.json 顶层应为数组"
  const REQUEST_DELAY_MS := 7000
  const NORMAL_SUFFIX := "_normal.wav"

  /** A string with something besides white space, and no white space at either end. */
  predicate Clean(s: string) {
    |s| > 0 && !IsSpace(s[0]) && !IsSpace(s[|s| - 1])
  }

  /** The `{ id, name }` of one entry of a category's `words`, when both are strings that are not blank, trimmed. */
  function WordOf(entry: Json): Option<Word> {
    var id := AsString(Member(Some(entry), "id"));
    var name := AsString(Member(Some(entry), "name"));
    if id.None? || |Trim(id.value)| == 0 then None
    else if name.None? || |Trim(name.value)| == 0 then None
    else Some(Word(Trim(id.value), Trim(name.value)))
  }

  /** The entries of `category.words` when it is an array, and none otherwise. */
  function CategoryEntries(category: Json): seq<Json> {
    match Member(Some(category), "words")
    case Some(JArray(items)) => items
    case _ => []
  }

  /** The words kept from a list of entries, in order. */
  function WordsOf(entries: seq<Json>): seq<Word> {
    if |entries| == 0 then []
    else
      var last := entries[|entries| - 1];
      WordsOf(entries[..|entries| - 1]) + if WordOf(last).Some? then [WordOf(last).value] else []
  }

  /** The words of every category, category by category. */
  function AllWords(categories: seq<Json>): seq<Word> {
    if |categories| == 0 then []
    else AllWords(categories[..|categories| - 1]) + WordsOf(CategoryEntries(categories[|categories| - 1]))
  }

  /** What `extractWords` returns or throws. */
  function ExtractedWords(json: Json): Result<seq<Word>, string> {
    if json.JArray? then Success(AllWords(json.items)) else Failure(TOP_LEVEL_NOT_ARRAY)
  }

  /** `extractWords`: walk the categories and their entries, keeping the well-formed words. */
  method ExtractWords(jsonValue: Json) returns (r: Result<seq<Word>, string>)
    ensures r == ExtractedWords(jsonValue)
    ensures r.Failure? <==> !jsonValue.JArray?
  {
    if !jsonValue.JArray? {
      return Failure(TOP_LEVEL_NOT_ARRAY);
    }
    var categories := jsonValue.items;
    var words: seq<Word> := [];
    for i := 0 to |categories|
      invariant words == AllWords(categories[..i])
    {
      assert categories[..i + 1][..i] == categories[..i];
      var entries := CategoryEntries(categories[i]);
      var categoryWords := Member(Some(categories[i]), "words");
      if !(categoryWords.Some? && categoryWords.value.JArray?) {
        assert entries == [];
        continue;
      }
      entries := categoryWords.value.items;
      for j := 0 to |entries|
        invariant words == AllWords(categories[..i]) + WordsOf(entries[..j])
      {
        assert entries[..j + 1][..j] == entries[..j];
        assert WordsOf(entries[..j + 1]) == WordsOf(entries[..j]) + if WordOf(entries[j]).Some? then [WordOf(entries[j]).value] else [];
        var id := AsString(Member(Some(entries[j]), "id"));
        var name := AsString(Member(Some(entries[j]), "name"));
        if id.None? || |Trim(id.value)| == 0 {
          continue;
        }
        if name.None? || |Trim(name.value)| == 0 {
          continue;
        }
        words := words + [Word(Trim(id.value), Trim(name.value))];
      }
      assert entries[..|entries|] == entries;
    }
    assert categories[..|categories|] == categories;
    return Success(words);
  }

  /** A kept word has a clean identifier and name that trimming leaves as they are. */
  lemma WordOfClean(entry: Json)
    requires WordOf(entry).Some?
    ensures var w := WordOf(entry).value;
      Clean(w.id) && Clean(w.name) && Trim(w.id) == w.id && Trim(w.name) == w.name
  {
    var id := AsString(Member(Some(entry), "id")).value;
    var name := AsString(Member(Some(entry), "name")).value;
    var _ := TrimShape(id);
    var _ := TrimShape(name);
    TrimIdempotent(id);
    TrimIdempotent(name);
  }

  /** Every entry that yields a word contributes it. */
  lemma {:induction false} WordsOfComplete(entries: seq<Json>, j: nat)
    requires j < |entries| && WordOf(entries[j]).Some?
    ensures WordOf(entries[j]).value in WordsOf(entries)
  {
    var init := entries[..|entries| - 1];
    if j < |init| {
      assert init[j] == entries[j];
      WordsOfComplete(init, j);
    }
  }

  /** Every kept word comes from some entry, which is returned. */
  lemma {:induction false} WordsOfSource(entries: seq<Json>, w: Word) returns (j: nat)
    requires w in WordsOf(entries)
    ensures j < |entries| && WordOf(entries[j]) == Some(w)
  {
    var init := entries[..|entries| - 1];
    if w in WordsOf(init) {
      j := WordsOfSource(init, w);
      assert entries[j] == init[j];
    } else {
      j := |entries| - 1;
    }
  }

  /** No more words than entries. */
  lemma {:induction false} WordsOfLength(entries: seq<Json>)
    ensures |WordsOf(entries)| <= |entries|
  {
    if |entries| > 0 {
      WordsOfLength(entries[..|entries| - 1]);
    }
  }

  /** Every word an entry of some category yields is extracted. */
  lemma {:induction false} AllWordsComplete(categories: seq<Json>, i: nat, j: nat)
    requires i < |categories| && j < |CategoryEntries(categories[i])|
    requires WordOf(CategoryEntries(categories[i])[j]).Some?
    ensures WordOf(CategoryEntries(categories[i])[j]).value in AllWords(categories)
  {
    var init := categories[..|categories| - 1];
    if i < |init| {
      assert init[i] == categories[i];
      AllWordsComplete(init, i, j);
    } else {
      WordsOfComplete(CategoryEntries(categories[i]), j);
    }
  }

  /** Every extracted word is clean and comes from an entry of some category, which is returned. */
  lemma {:induction false} AllWordsSource(categories: seq<Json>, w: Word) returns (i: nat, j: nat)
    requires w in AllWords(categories)
    ensures i < |categories| && j < |CategoryEntries(categories[i])|
    ensures WordOf(CategoryEntries(categories[i])[j]) == Some(w)
    ensures Clean(w.id) && Clean(w.name)
  {
    var init := categories[..|categories| - 1];
    if w in AllWords(init) {
      i, j := AllWordsSource(init, w);
      assert categories[i] == init[i];
    } else {
      i := |categories| - 1;
      j := WordsOfSource(CategoryEntries(categories[i]), w);
      WordOfClean(CategoryEntries(categories[i])[j]);
    }
  }

  /** Words keep their order: the words of two runs of entries are the words of the first, then of the second. */
  lemma {:induction false} WordsOfAppend(a: seq<Json>, b: seq<Json>)
    ensures WordsOf(a + b) == WordsOf(a) + WordsOf(b)
  {
    if |b| > 0 {
      var init := b[..|b| - 1];
      assert (a + b)[..|a + b| - 1] == a + init;
      WordsOfAppend(a, init);
    } else {
      assert a + b == a;
    }
  }

  /** Categories keep their order: the words of two runs of categories are those of the first, then of the second. */
  lemma {:induction false} AllWordsAppend(a: seq<Json>, b: seq<Json>)
    ensures AllWords(a + b) == AllWords(a) + AllWords(b)
  {
    if |b| > 0 {
      var init := b[..|b| - 1];
      assert (a + b)[..|a + b| - 1] == a + init;
      AllWordsAppend(a, init);
    } else {
      assert a + b == a;
    }
  }

  /** A file with one category: blank and non-string fields are dropped, the others trimmed. */
  lemma ExtractWordsExample()
    ensures var category := JObject(map["words" := JArray([PADDED_ENTRY, BLANK_ENTRY, NUMERIC_ENTRY])]);
      && ExtractedWords(JArray([category, JNull])) == Success([Word("a", "b")])
      && ExtractedWords(category) == Failure(TOP_LEVEL_NOT_ARRAY)
  {
    EntryExamples();
    var entries := [PADDED_ENTRY, BLANK_ENTRY, NUMERIC_ENTRY];
    assert entries[..2][..1] == [PADDED_ENTRY];
    assert [PADDED_ENTRY][..0] == [];
    assert WordsOf([PADDED_ENTRY]) == [Word("a", "b")];
    assert WordsOf(entries[..2]) == [Word("a", "b")];
    assert WordsOf(entries) == [Word("a", "b")];
    var category := JObject(map["words" := JArray(entries)]);
    assert CategoryEntries(category) == entries;
    assert CategoryEntries(JNull) == [];
    assert [category][..0] == [];
    assert AllWords([category]) == [Word("a", "b")];
    assert [category, JNull][..1] == [category];
  }

  const PADDED_ENTRY := JObject(map["id" := JString(" a "), "name" := JString("b")])
  const BLANK_ENTRY := JObject(map["id" := JString(" "), "name" := JString("c")])
  const NUMERIC_ENTRY := JObject(map["id" := JString("d"), "name" := JNumber(1)])

  /** An identifier with spaces around it is trimmed; a blank one, or a name that is not a string, drops the entry. */
  lemma EntryExamples()
    ensures WordOf(PADDED_ENTRY) == Some(Word("a", "b"))
    ensures WordOf(BLANK_ENTRY) == None
    ensures WordOf(NUMERIC_ENTRY) == None
  {
    TrimExamples();
  }

  lemma TrimExamples()
    ensures Trim(" a ") == "a" && Trim("b") == "b" && Trim(" ") == "" && Trim("d") == "d"
  {
    assert TrimStart(" a ") == "a ";
    assert TrimEnd("a ") == "a";
    assert TrimStart(" ") == "";
  }

  // ------------------------------------------------------------------
  // The pass over the words
  // ------------------------------------------------------------------

  /**
   * How the request for one word ended: the decoded audio with its content
   * type, or the error that escaped the retry loop.
   */
  datatype Reply = Spoken(samples: seq<Byte>, mimeType: Option<string>) | Thrown(error: TtsError)

  /** Why a word failed: the request threw, or the header could not be written. */
  datatype Cause = RequestError(error: TtsError) | HeaderRangeError(header: HeaderError)

  /** An entry of `stats.failedWords`. */
  datatype FailedWord = FailedWord(id: string, name: string, cause: Cause)

  /** The statistics of a pass. */
  datatype Tally = Tally(success: nat, skipped: nat, failed: nat, failedWords: seq<FailedWord>)

  /** Where a pass stands: its statistics, the output directory (file name to contents) and the pauses taken. */
  datatype Progress = Progress(tally: Tally, dir: map<string, seq<Byte>>, sleeps: seq<nat>)

  /** The file of a word's normal-speed recording. */
  function FileName(word: Word): string {
    word.id + NORMAL_SUFFIX
  }

  /** What writing the file for a word's reply gives: the WAV bytes, or why the word failed. */
  function Framed(reply: Reply): Result<seq<Byte>, Cause> {
    match reply
    case Thrown(e) => Failure(RequestError(e))
    case Spoken(samples, mimeType) =>
      match WavBytes(samples, MimeFormat(mimeType))
      case Success(wav) => Success(wav)
      case Failure(e) => Failure(HeaderRangeError(e))
  }

  /**
   * One turn of the loop for word `index`: skip it when its file exists;
   * otherwise write the file or record the failure, then pause unless it is
   * the last word.
   */
  function Visit(p: Progress, words: seq<Word>, index: nat, reply: Reply): Progress
    requires index < |words|
  {
    var word := words[index];
    var file := FileName(word);
    if file in p.dir then p.(tally := p.tally.(skipped := p.tally.skipped + 1))
    else
      var done := match Framed(reply)
        case Success(wav) => p.(tally := p.tally.(success := p.tally.success + 1), dir := p.dir[file := wav])
        case Failure(cause) =>
          p.(tally := p.tally.(failed := p.tally.failed + 1,
                               failedWords := p.tally.failedWords + [FailedWord(word.id, word.name, cause)]));
      if index < |words| - 1 then done.(sleeps := done.sleeps + [REQUEST_DELAY_MS]) else done
  }

  /** The state of the pass after the first `n` words, starting from an empty tally and the directory `dir`. */
  function Pass(words: seq<Word>, dir: map<string, seq<Byte>>, replies: seq<Reply>, n: nat): (p: Progress)
    requires |replies| == |words| && n <= |words|
    ensures p.tally.success + p.tally.skipped + p.tally.failed == n
    ensures |p.tally.failedWords| == p.tally.failed
    ensures |p.sleeps| <= p.tally.success + p.tally.failed
    ensures n < |words| ==> |p.sleeps| == p.tally.success + p.tally.failed
  {
    if n == 0 then Progress(Tally(0, 0, 0, []), dir, [])
    else Visit(Pass(words, dir, replies, n - 1), words, n - 1, replies[n - 1])
  }

  /** Every pause is the request interval. */
  lemma {:induction false} PassSleeps(words: seq<Word>, dir: map<string, seq<Byte>>, replies: seq<Reply>, n: nat)
    requires |replies| == |words| && n <= |words|
    ensures forall k :: 0 <= k < |Pass(words, dir, replies, n).sleeps| ==> Pass(words, dir, replies, n).sleeps[k] == REQUEST_DELAY_MS
  {
    if n > 0 {
      PassSleeps(words, dir, replies, n - 1);
    }
  }

  /**
   * One turn settles exactly one word: exactly one count grows, by one; it is
   * `skipped` exactly when the file exists; a failure appends the word's id,
   * name and cause; a success stores the WAV bytes under the word's file name
   * and changes nothing else; and a pause follows every requested word but
   * the last.
   */
  lemma VisitTally(p: Progress, words: seq<Word>, index: nat, reply: Reply)
    requires index < |words|
    ensures var q := Visit(p, words, index, reply);
      && q.tally.success + q.tally.skipped + q.tally.failed == p.tally.success + p.tally.skipped + p.tally.failed + 1
      && q.tally.success >= p.tally.success && q.tally.skipped >= p.tally.skipped && q.tally.failed >= p.tally.failed
      && (q.tally.skipped > p.tally.skipped <==> FileName(words[index]) in p.dir)
      && (q.tally.failed > p.tally.failed <==> FileName(words[index]) !in p.dir && Framed(reply).Failure?)
      && |q.tally.failedWords| - |p.tally.failedWords| == q.tally.failed - p.tally.failed
      && q.tally.failedWords == p.tally.failedWords
           + (if q.tally.failed > p.tally.failed then [FailedWord(words[index].id, words[index].name, Framed(reply).error)] else [])
      && (q.tally.success > p.tally.success ==> q.dir == p.dir[FileName(words[index]) := Framed(reply).value])
      && (q.tally.success == p.tally.success ==> q.dir == p.dir)
      && |q.sleeps| == |p.sleeps| + (if q.tally.skipped > p.tally.skipped || index == |words| - 1 then 0 else 1)
  {
  }

  /** The file a turn writes for a word reads back as the reply's samples in the format its content type gives. */
  lemma VisitWrittenReadsBack(p: Progress, words: seq<Word>, index: nat, reply: Reply)
    requires index < |words| && FileName(words[index]) !in p.dir && Framed(reply).Success?
    ensures reply.Spoken?
    ensures var q := Visit(p, words, index, reply);
      var f := MimeFormat(reply.mimeType);
      && FileName(words[index]) in q.dir
      && ReadWav(q.dir[FileName(words[index])]) == Some(WavFile(f, ByteRate(f), BlockAlign(f), reply.samples))
  {
    WrittenFileReadsBack(reply);
  }

  /** One turn never removes or overwrites a file. */
  lemma VisitKeepsFiles(p: Progress, words: seq<Word>, index: nat, reply: Reply)
    requires index < |words|
    ensures var q := Visit(p, words, index, reply);
      forall f :: f in p.dir ==> f in q.dir && q.dir[f] == p.dir[f]
  {
  }

  /** Files are never removed or overwritten: whatever is in the directory after `k` words is still there, unchanged, after `m`. */
  lemma {:induction false} PassKeepsFiles(words: seq<Word>, dir: map<string, seq<Byte>>, replies: seq<Reply>, k: nat, m: nat)
    requires |replies| == |words| && k <= m <= |words|
    ensures var before := Pass(words, dir, replies, k).dir;
      var after := Pass(words, dir, replies, m).dir;
      forall f :: f in before ==> f in after && after[f] == before[f]
  {
    if k < m {
      PassKeepsFiles(words, dir, replies, k, m - 1);
      var previous := Pass(words, dir, replies, m - 1);
      VisitKeepsFiles(previous, words, m - 1, replies[m - 1]);
      assert Pass(words, dir, replies, m) == Visit(previous, words, m - 1, replies[m - 1]);
    }
  }

  /** A word whose file is written reads back as the reply's samples in the format its content type gives. */
  lemma WrittenFileReadsBack(reply: Reply)
    requires Framed(reply).Success?
    ensures reply.Spoken?
    ensures var f := MimeFormat(reply.mimeType);
      ReadWav(Framed(reply).value) == Some(WavFile(f, ByteRate(f), BlockAlign(f), reply.samples))
  {
    ReadWavOfWavBytes(reply.samples, MimeFormat(reply.mimeType));
  }

  /**
   * A word whose identifier repeats that of an earlier word that was written
   * or skipped is itself skipped: the earlier file is found.
   */
  lemma RepeatedIdSkipped(words: seq<Word>, dir: map<string, seq<Byte>>, replies: seq<Reply>, i: nat, j: nat)
    requires |replies| == |words| && i < j < |words| && words[i].id == words[j].id
    requires var p := Pass(words, dir, replies, i);
      FileName(words[i]) in p.dir || Framed(replies[i]).Success?
    ensures Pass(words, dir, replies, j + 1).tally.skipped == Pass(words, dir, replies, j).tally.skipped + 1
  {
    assert FileName(words[i]) in Pass(words, dir, replies, i + 1).dir;
    PassKeepsFiles(words, dir, replies, i + 1, j);
  }

  /** When every word's file is already there, nothing is requested, written or waited for. */
  lemma {:induction false} AllPresentAllSkipped(words: seq<Word>, dir: map<string, seq<Byte>>, replies: seq<Reply>, n: nat)
    requires |replies| == |words| && n <= |words|
    requires forall i :: 0 <= i < |words| ==> FileName(words[i]) in dir
    ensures Pass(words, dir, replies, n) == Progress(Tally(0, n, 0, []), dir, [])
  {
    if n > 0 {
      AllPresentAllSkipped(words, dir, replies, n - 1);
    }
  }

  /** With no file present and every request failing, every word fails in order and a pause follows each but the last. */
  lemma {:induction false} AllThrownAllFailed(words: seq<Word>, replies: seq<Reply>, n: nat)
    requires |replies| == |words| && n <= |words|
    requires forall i :: 0 <= i < |words| ==> replies[i].Thrown?
    ensures var p := Pass(words, map[], replies, n);
      && p.tally.success == 0 && p.tally.skipped == 0 && p.tally.failed == n && p.dir == map[]
      && (forall i :: 0 <= i < n ==>
            p.tally.failedWords[i] == FailedWord(words[i].id, words[i].name, RequestError(replies[i].error)))
      && |p.sleeps| == if n == |words| && n > 0 then n - 1 else n
  {
    if n > 0 {
      AllThrownAllFailed(words, replies, n - 1);
      var before := Pass(words, map[], replies, n - 1);
      assert Framed(replies[n - 1]) == Failure(RequestError(replies[n - 1].error));
      var after := Pass(words, map[], replies, n);
      assert after.tally.failedWords
          == before.tally.failedWords + [FailedWord(words[n - 1].id, words[n - 1].name, RequestError(replies[n - 1].error))];
    }
  }

  /** The module-level `stats` object, updated in place as the words are processed. */
  class Stats {
    var success: nat
    var skipped: nat
    var failed: nat
    var failedWords: seq<FailedWord>

    /** The initial statistics: all zero, no failed words. */
    constructor ()
      ensures Counts() == Tally(0, 0, 0, [])
    {
      success, skipped, failed, failedWords := 0, 0, 0, [];
    }

    /** The statistics as a value. */
    function Counts(): Tally
      reads this
    {
      Tally(success, skipped, failed, failedWords)
    }
  }

  /**
   * The loop of `main` over the extracted words, with the output directory
   * and each word's reply given: returns the final directory and the pauses.
   */
  method GenerateAll(stats: Stats, words: seq<Word>, dir: map<string, seq<Byte>>, replies: seq<Reply>)
    returns (files: map<string, seq<Byte>>, sleeps: seq<nat>)
    requires |replies| == |words| && stats.Counts() == Tally(0, 0, 0, [])
    modifies stats
    ensures var p := Pass(words, dir, replies, |words|);
      stats.Counts() == p.tally && files == p.dir && sleeps == p.sleeps
  {
    files, sleeps := dir, [];
    for index := 0 to |words|
      invariant Progress(stats.Counts(), files, sleeps) == Pass(words, dir, replies, index)
    {
      assert Pass(words, dir, replies, index + 1)
          == Visit(Progress(stats.Counts(), files, sleeps), words, index, replies[index]);
      var word := words[index];
      var normalFilePath := FileName(word);
      if normalFilePath in files {
        stats.skipped := stats.skipped + 1;
        continue;
      }
      var failure: Option<Cause> := None;
      match replies[index] {
        case Thrown(e) =>
          failure := Some(RequestError(e));
        case Spoken(samples, mimeType) =>
          var wav := ConvertToWav(samples, mimeType);
          match wav {
            case Success(bytes) =>
              files := files[normalFilePath := bytes];
            case Failure(e) =>
              failure := Some(HeaderRangeError(e));
          }
      }
      if failure.None? {
        stats.success := stats.success + 1;
      } else {
        stats.failed := stats.failed + 1;
        stats.failedWords := stats.failedWords + [FailedWord(word.id, word.name, failure.value)];
      }
      if index < |words| - 1 {
        sleeps := sleeps + [REQUEST_DELAY_MS];
      }
    }
  }
}

=== FILE: classify.dfy ===
/**
 * How one request to the speech service ends: the status classification of
 * `postJson` and the audio payload check of `requestTextToSpeech`. The HTTP
 * client itself is not modelled; what it produced for one POST is the input.
 */
module Classify {
  import opened Wrappers
  import opened Text
  import opened Json

  /** The three error kinds the request code throws. */
  datatype TtsError =
    | RateLimitError(message: string)
    | RetryableError(message: string)
    | FatalError(message: string, statusCode: int)

  /**
   * What the HTTP client produced for one POST: a transport failure (network
   * error, timeout) with its message, or a response with its status code, its
   * parsed body and the body's `JSON.stringify` text.
   */
  datatype Transport =
    | TransportFailure(message: string)
    | Response(statusCode: int, body: Json, bodyText: string)

  /** The audio a successful request returns: base64 text and the content type, if any. */
  datatype TtsAudio = TtsAudio(audioBase64: string, mimeType: Option<string>)

  const MISSING_AUDIO_MESSAGE := "API 返回缺少音频数据"
  const RETRYABLE_DETAIL_LIMIT := 200
  const FATAL_DETAIL_LIMIT := 500

  /** `s.slice(0, n)`. */
  function Prefix(s: string, n: nat): (r: string)
    ensures |r| <= n && r <= s
    ensures |s| <= n ==> r == s
    ensures |s| > n ==> |r| == n
  {
    if |s| <= n then s else s[..n]
  }

  /** `String(errorMsg)`: the text of `errorBody?.error?.message || JSON.stringify(errorBody)`, as a rate-limit error keeps it. */
  function ErrorMessage(body: Json, bodyText: string): string {
    JsString(ErrorValue(body, bodyText))
  }

  /**
   * The detail of an HTTP error, `${errorMsg.slice(0, limit)}`. Where
   * `errorMsg` has no `slice`, the case the code as written turns into a
   * `TypeError`, the detail is the body text cut the same way.
   */
  function ErrorDetail(body: Json, bodyText: string, limit: nat): string {
    var errorMsg := ErrorValue(body, bodyText);
    if HasSlice(errorMsg) then SliceText(errorMsg, limit) else Prefix(bodyText, limit)
  }

  /** `HTTP <status>: <detail>`. */
  function HttpMessage(statusCode: int, detail: string): string {
    "HTTP " + IntToString(statusCode) + ": " + detail
  }

  /**
   * `postJson` once the client has answered: a 2xx body is returned, 429 is a
   * rate limit, 5xx and the statuses outside 2xx/4xx/5xx are retryable, the
   * other 4xx are fatal, and a transport failure is retryable.
   */
  function PostJson(t: Transport): (r: Result<Json, TtsError>)
    ensures t.TransportFailure? ==> r == Failure(RetryableError(t.message))
    ensures t.Response? ==> (r.Success? <==> 200 <= t.statusCode < 300)
    ensures r.Success? ==> t.Response? && r.value == t.body
    ensures t.Response? ==> (r.Failure? && r.error.RateLimitError? <==> t.statusCode == 429)
    ensures t.Response? ==> (r.Failure? && r.error.FatalError? <==> 400 <= t.statusCode < 500 && t.statusCode != 429)
    ensures t.Response? ==> (r.Failure? && r.error.RetryableError?
                             <==> t.statusCode < 200 || 300 <= t.statusCode < 400 || t.statusCode >= 500)
    ensures r.Failure? && r.error.FatalError? ==> r.error.statusCode == t.statusCode
  {
    match t
    case TransportFailure(message) => Failure(RetryableError(message))
    case Response(statusCode, body, bodyText) =>
      if 200 <= statusCode < 300 then Success(body)
      else if statusCode == 429 then Failure(RateLimitError(ErrorMessage(body, bodyText)))
      else if statusCode >= 500 then
        Failure(RetryableError(HttpMessage(statusCode, ErrorDetail(body, bodyText, RETRYABLE_DETAIL_LIMIT))))
      else if statusCode >= 400 then
        Failure(FatalError(HttpMessage(statusCode, ErrorDetail(body, bodyText, FATAL_DETAIL_LIMIT)), statusCode))
      else Failure(RetryableError(HttpMessage(statusCode, ErrorDetail(body, bodyText, RETRYABLE_DETAIL_LIMIT))))
  }

  /**
   * The message of an HTTP error other than 429 is `HTTP <status>: ` and a
   * detail cut to 200 characters or items, or to 500 for a fatal error: the
   * start of the service's message when it is a string, its first items
   * joined by commas when it is an array, and the start of the body text
   * otherwise.
   */
  lemma HttpErrorMessage(t: Transport)
    requires t.Response? && !(200 <= t.statusCode < 300) && t.statusCode != 429
    ensures var r := PostJson(t);
      var limit := if r.error.FatalError? then FATAL_DETAIL_LIMIT else RETRYABLE_DETAIL_LIMIT;
      var head := "HTTP " + IntToString(t.statusCode) + ": ";
      var message := Member(Member(Some(t.body), "error"), "message");
      var detail := r.error.message[|head|..];
      && r.Failure? && |head| <= |r.error.message| && r.error.message[..|head|] == head
      && (Truthy(message) && message.value.JString? ==> detail == Prefix(message.value.s, limit))
      && (Truthy(message) && message.value.JArray? ==>
            var items := message.value.items;
            detail == JsString(JArray(if |items| <= limit then items else items[..limit])))
      && (!Truthy(message) || !HasSlice(message.value) ==> detail == Prefix(t.bodyText, limit))
  {
    var head := "HTTP " + IntToString(t.statusCode) + ": ";
    var r := PostJson(t);
    var limit := if r.error.FatalError? then FATAL_DETAIL_LIMIT else RETRYABLE_DETAIL_LIMIT;
    var detail := ErrorDetail(t.body, t.bodyText, limit);
    assert r.error.message == head + detail;
    assert (head + detail)[..|head|] == head;
    assert (head + detail)[|head|..] == detail;
    var message := Member(Member(Some(t.body), "error"), "message");
    if Truthy(message) && message.value.JArray? {
      var items := message.value.items;
      assert items[..|items|] == items;
    }
  }

  /**
   * The service's own `error.message` is preferred to the raw body text when
   * it is a non-empty string or an array; an empty message or a body without
   * one gives the body text.
   */
  lemma ServiceMessagePreferred(message: string, bodyText: string)
    requires message != ""
    ensures ErrorMessage(JObject(map["error" := JObject(map["message" := JString(message)])]), bodyText) == message
    ensures ErrorMessage(JObject(map["error" := JObject(map["message" := JString("")])]), bodyText) == bodyText
    ensures ErrorMessage(JObject(map["error" := JObject(map["message" := JArray([JString(message)])])]), bodyText) == message
    ensures ErrorMessage(JNull, bodyText) == bodyText
  {
    var one := [JString(message)];
    assert seq(|one|, i requires 0 <= i < |one| => if one[i] == JNull then "" else JsString(one[i])) == [message];
    assert Join([message], ',') == message;
  }

  /** The JavaScript truthiness of a property read (`undefined` is `None`). */
  predicate Truthy(v: Option<Json>) {
    match v
    case None => false
    case Some(JNull) => false
    case Some(JBool(b)) => b
    case Some(JNumber(n)) => n != 0
    case Some(JString(s)) => s != ""
    case Some(_) => true
  }

  /** `String(value)`, the text `new Error(value)` keeps for a value that is not a string. */
  function JsString(v: Json): string
    decreases v
  {
    match v
    case JNull => "null"
    case JBool(b) => if b then "true" else "false"
    case JNumber(n) => IntToString(n)
    case JString(s) => s
    case JArray(items) =>
      Join(seq(|items|, i requires 0 <= i < |items| => if items[i] == JNull then "" else JsString(items[i])), ',')
    case JObject(_) => "[object Object]"
  }

  /** The message V8 gives the `TypeError` of calling `slice` on a value that has no `slice` method. */
  const SLICE_TYPE_ERROR := "errorMsg.slice is not a function"

  /**
   * `errorBody?.error?.message || JSON.stringify(errorBody)` as the value it
   * is: the service's message when it is truthy, whatever its type, and the
   * body text otherwise.
   */
  function ErrorValue(body: Json, bodyText: string): Json {
    var message := Member(Member(Some(body), "error"), "message");
    if Truthy(message) then message.value else JString(bodyText)
  }

  /** Strings and arrays have a `slice` method; numbers, booleans, `null` and plain objects do not. */
  predicate HasSlice(v: Json) {
    v.JString? || v.JArray?
  }

  /** The text of `${errorMsg.slice(0, limit)}`: a string's first characters, or an array's first items joined by commas. */
  function SliceText(v: Json, limit: nat): string
    requires HasSlice(v)
  {
    if v.JString? then Prefix(v.s, limit)
    else JsString(JArray(v.items[..if |v.items| <= limit then |v.items| else limit]))
  }

  /** Whether, as written, a response makes `errorMsg.slice` throw: an error other than 429 whose `errorMsg` has no `slice`. */
  predicate SliceThrows(t: Transport) {
    && t.Response?
    && !(200 <= t.statusCode < 300)
    && t.statusCode != 429
    && !HasSlice(ErrorValue(t.body, t.bodyText))
  }

  /**
   * `postJson` as written. `||` keeps a truthy `error.message` of any type; a
   * 429 stores its text, a string or an array is cut by `slice` into the
   * `HTTP <status>: ` message, and for a number, `true` or an object the call
   * `errorMsg.slice` throws a `TypeError` that the `catch` block wraps as a
   * retryable error.
   */
  function PostJsonAsWritten(t: Transport): (r: Result<Json, TtsError>)
    ensures t.TransportFailure? ==> r == Failure(RetryableError(t.message))
    ensures t.Response? ==> (r.Success? <==> 200 <= t.statusCode < 300)
    ensures r.Success? ==> t.Response? && r.value == t.body
    ensures t.Response? ==> (r.Failure? && r.error.RateLimitError? <==> t.statusCode == 429)
    ensures t.Response? ==> (r == Failure(RetryableError(SLICE_TYPE_ERROR)) <==> SliceThrows(t))
    ensures t.Response? ==> (r.Failure? && r.error.FatalError?
                             <==> 400 <= t.statusCode < 500 && t.statusCode != 429 && !SliceThrows(t))
    ensures r.Failure? && r.error.FatalError? ==> r.error.statusCode == t.statusCode
  {
    match t
    case TransportFailure(message) => Failure(RetryableError(message))
    case Response(statusCode, body, _) =>
      if 200 <= statusCode < 300 then Success(body)
      else
        var errorMsg := ErrorValue(body, t.bodyText);
        if statusCode == 429 then Failure(RateLimitError(JsString(errorMsg)))
        else if !HasSlice(errorMsg) then Failure(RetryableError(SLICE_TYPE_ERROR))
        else
          assert HttpMessage(statusCode, "")[0] != SLICE_TYPE_ERROR[0];
          if statusCode >= 500 then Failure(RetryableError(HttpMessage(statusCode, SliceText(errorMsg, RETRYABLE_DETAIL_LIMIT))))
          else if statusCode >= 400 then Failure(FatalError(HttpMessage(statusCode, SliceText(errorMsg, FATAL_DETAIL_LIMIT)), statusCode))
          else Failure(RetryableError(HttpMessage(statusCode, SliceText(errorMsg, RETRYABLE_DETAIL_LIMIT))))
  }

  /**
   * The corrected `PostJson` differs from the code as written only where
   * `errorMsg.slice` throws. There the code as written retries with the
   * `TypeError`, and `PostJson` classifies by the status with the body text
   * as the detail.
   */
  lemma AsWrittenAgrees(t: Transport)
    ensures !SliceThrows(t) ==> PostJsonAsWritten(t) == PostJson(t)
    ensures SliceThrows(t) ==>
      var limit := if 400 <= t.statusCode < 500 then FATAL_DETAIL_LIMIT else RETRYABLE_DETAIL_LIMIT;
      var message := HttpMessage(t.statusCode, Prefix(t.bodyText, limit));
      && PostJsonAsWritten(t) == Failure(RetryableError(SLICE_TYPE_ERROR))
      && PostJson(t) == Failure(if 400 <= t.statusCode < 500 then FatalError(message, t.statusCode) else RetryableError(message))
  {
  }

  /** A client error whose `error.message` is the number 42 is retried as written, where its status makes it fatal. */
  lemma NumericMessageRetried(statusCode: int, bodyText: string)
    requires 400 <= statusCode < 500 && statusCode != 429
    ensures var t := Response(statusCode, JObject(map["error" := JObject(map["message" := JNumber(42)])]), bodyText);
      && PostJsonAsWritten(t) == Failure(RetryableError(SLICE_TYPE_ERROR))
      && PostJson(t) == Failure(FatalError(HttpMessage(statusCode, Prefix(bodyText, FATAL_DETAIL_LIMIT)), statusCode))
  {
  }

  /**
   * A client error whose `error.message` is an array stays fatal, as written
   * and in `PostJson`: arrays have `slice`, and the message joins the first
   * 500 items by commas.
   */
  lemma ArrayMessageFatal(statusCode: int, items: seq<Json>, bodyText: string)
    requires 400 <= statusCode < 500 && statusCode != 429
    ensures var t := Response(statusCode, JObject(map["error" := JObject(map["message" := JArray(items)])]), bodyText);
      var kept := if |items| <= FATAL_DETAIL_LIMIT then items else items[..FATAL_DETAIL_LIMIT];
      && PostJsonAsWritten(t) == Failure(FatalError(HttpMessage(statusCode, JsString(JArray(kept))), statusCode))
      && PostJson(t) == PostJsonAsWritten(t)
  {
    var body := JObject(map["error" := JObject(map["message" := JArray(items)])]);
    assert Member(Member(Some(body), "error"), "message") == Some(JArray(items));
    assert ErrorValue(body, bodyText) == JArray(items);
    assert items[..|items|] == items;
  }

  /** `candidates?.[0]?.content?.parts?.[0]`: the first part of the first candidate of a response body. */
  function FirstPart(responseData: Json): Option<Json> {
    First(Member(Member(First(Member(Some(responseData), "candidates")), "content"), "parts"))
  }

  /** `part?.inlineData ?? part?.inline_data`: the inline payload, in either spelling. */
  function Payload(responseData: Json): Option<Json> {
    var part := FirstPart(responseData);
    Coalesce(Member(part, "inlineData"), Member(part, "inline_data"))
  }

  /**
   * The audio of a successful response body: the payload's `data`, which
   * must be a non-empty string, and its `mimeType` (or `mime_type`) when that
   * is a string; a missing payload is a retryable error.
   */
  function ExtractAudio(responseData: Json): (r: Result<TtsAudio, TtsError>)
    ensures var data := AsString(Member(Payload(responseData), "data"));
      r.Success? <==> data.Some? && data.value != ""
    ensures r.Success? ==> Some(r.value.audioBase64) == AsString(Member(Payload(responseData), "data"))
    ensures r.Success? ==> |r.value.audioBase64| > 0
    ensures r.Success? && AsString(Member(Payload(responseData), "mimeType")).Some? ==>
      r.value.mimeType == AsString(Member(Payload(responseData), "mimeType"))
    ensures r.Success? && AsString(Member(Payload(responseData), "mimeType")).None? ==>
      r.value.mimeType == AsString(Member(Payload(responseData), "mime_type"))
    ensures r.Failure? ==> r.error == RetryableError(MISSING_AUDIO_MESSAGE)
  {
    var inline := Payload(responseData);
    var audioBase64 := AsString(Member(inline, "data"));
    var mimeType :=
      if AsString(Member(inline, "mimeType")).Some? then AsString(Member(inline, "mimeType"))
      else AsString(Member(inline, "mime_type"));
    if audioBase64.None? || audioBase64.value == "" then Failure(RetryableError(MISSING_AUDIO_MESSAGE))
    else Success(TtsAudio(audioBase64.value, mimeType))
  }

  /** A body without a `candidates` member, such as an error object sent with a 2xx status, is the missing-audio error. */
  lemma NoCandidatesIsRetryable(responseData: Json)
    requires !(responseData.JObject? && "candidates" in responseData.members)
    ensures ExtractAudio(responseData) == Failure(RetryableError(MISSING_AUDIO_MESSAGE))
  {
  }

  /** A payload whose `data` is not a string (here a number) is the missing-audio error, whatever its type says. */
  lemma NumericDataIsRetryable(n: int, mimeType: string)
    ensures var inline := JObject(map["data" := JNumber(n), "mimeType" := JString(mimeType)]);
      var part := JObject(map["inlineData" := inline]);
      var body := JObject(map["candidates" := JArray([JObject(map["content" := JObject(map["parts" := JArray([part])])])])]);
      ExtractAudio(body) == Failure(RetryableError(MISSING_AUDIO_MESSAGE))
  {
    var inline := JObject(map["data" := JNumber(n), "mimeType" := JString(mimeType)]);
    var part := JObject(map["inlineData" := inline]);
    var body := JObject(map["candidates" := JArray([JObject(map["content" := JObject(map["parts" := JArray([part])])])])]);
    assert FirstPart(body) == Some(part);
    assert Payload(body) == Some(inline);
  }

  /** When a part carries both spellings, `inlineData` wins unless it is `null`. */
  lemma CamelCaseWins(part: map<string, Json>, responseData: Json)
    requires FirstPart(responseData) == Some(JObject(part))
    requires "inlineData" in part && part["inlineData"] != JNull
    ensures Payload(responseData) == Some(part["inlineData"])
  {
  }

  /** One pass through the body of the request loop's `try`: post, then check the payload. */
  function Attempt(t: Transport): (r: Result<TtsAudio, TtsError>)
    ensures r.Success? ==> t.Response? && 200 <= t.statusCode < 300 && |r.value.audioBase64| > 0
    ensures t.Response? && 200 <= t.statusCode < 300 ==> r == ExtractAudio(t.body)
    ensures !(t.Response? && 200 <= t.statusCode < 300) ==> r == Failure(PostJson(t).error)
  {
    match PostJson(t)
    case Success(responseData) => ExtractAudio(responseData)
    case Failure(e) => Failure(e)
  }

  /** A 2xx response is only ever a success or the retryable missing-audio error, never fatal or rate limited. */
  lemma SuccessStatusNeverFails(t: Transport)
    requires t.Response? && 200 <= t.statusCode < 300
    ensures Attempt(t).Success? || Attempt(t).error == RetryableError(MISSING_AUDIO_MESSAGE)
  {
  }

  /** The body the service sends: one candidate whose first part holds inline audio. */
  function AudioBody(inlineKey: string, mimeKey: string, data: string, mimeType: string): Json {
    var inline := JObject(map["data" := JString(data), mimeKey := JString(mimeType)]);
    var part := JObject(map[inlineKey := inline]);
    var content := JObject(map["parts" := JArray([part])]);
    JObject(map["candidates" := JArray([JObject(map["content" := content])])])
  }

  /** A 200 response in camel case yields its audio and content type. */
  lemma CamelCaseAudio(statusCode: int, data: string, mimeType: string, bodyText: string)
    requires 200 <= statusCode < 300 && data != ""
    ensures Attempt(Response(statusCode, AudioBody("inlineData", "mimeType", data, mimeType), bodyText))
         == Success(TtsAudio(data, Some(mimeType)))
  {
    var body := AudioBody("inlineData", "mimeType", data, mimeType);
    var inline := JObject(map["data" := JString(data), "mimeType" := JString(mimeType)]);
    var part := Some(JObject(map["inlineData" := inline]));
    assert FirstPart(body) == part;
    assert Payload(body) == Some(inline);
  }

  /** A 200 response in snake case (`inline_data`, `mime_type`) yields its audio and content type too. */
  lemma SnakeCaseAudio(statusCode: int, data: string, mimeType: string, bodyText: string)
    requires 200 <= statusCode < 300 && data != ""
    ensures Attempt(Response(statusCode, AudioBody("inline_data", "mime_type", data, mimeType), bodyText))
         == Success(TtsAudio(data, Some(mimeType)))
  {
    var body := AudioBody("inline_data", "mime_type", data, mimeType);
    var inline := JObject(map["data" := JString(data), "mime_type" := JString(mimeType)]);
    var part := Some(JObject(map["inline_data" := inline]));
    assert FirstPart(body) == part;
    assert "inlineData" !in part.value.members;
    assert Payload(body) == Some(inline);
    assert "mimeType" !in inline.members;
  }

  /** A 200 response whose audio string is empty is retried. */
  lemma EmptyAudioIsRetryable(statusCode: int, mimeType: string, bodyText: string)
    requires 200 <= statusCode < 300
    ensures Attempt(Response(statusCode, AudioBody("inlineData", "mimeType", "", mimeType), bodyText))
         == Failure(RetryableError(MISSING_AUDIO_MESSAGE))
  {
    var body := AudioBody("inlineData", "mimeType", "", mimeType);
    var inline := JObject(map["data" := JString(""), "mimeType" := JString(mimeType)]);
    var part := Some(JObject(map["inlineData" := inline]));
    assert FirstPart(body) == part;
  }
}

=== FILE: json.dfy ===
/**
 * Parsed JSON values, as `JSON.parse` and the HTTP client hand them to the
 * generator, with the optional-chaining property reads (`a?.b`, `a?.[0]`)
 * the generator uses on them.
 */
module Json {
  import opened Wrappers

  datatype Json =
    | JNull
    | JBool(b: bool)
    | JNumber(n: int)
    | JString(s: string)
    | JArray(items: seq<Json>)
    | JObject(members: map<string, Json>)

  /** `value?.key`: the member of an object; `None` stands for `undefined`. */
  function Member(value: Option<Json>, key: string): (r: Option<Json>)
    ensures r.Some? <==> value.Some? && value.value.JObject? && key in value.value.members
  {
    match value
    case Some(JObject(members)) => if key in members then Some(members[key]) else None
    case _ => None
  }

  /** `value?.[0]`: the first element of an array, the member `"0"` of an object, or the first character of a string. */
  function First(value: Option<Json>): (r: Option<Json>)
    ensures r.Some? ==> value.Some? && (value.value.JArray? || value.value.JObject? || value.value.JString?)
    ensures value.Some? && value.value.JArray? ==> (r.Some? <==> |value.value.items| > 0)
    ensures value.Some? && value.value.JString? ==> (r.Some? <==> |value.value.s| > 0) && (r.Some? ==> r.value.JString?)
  {
    match value
    case Some(JArray(items)) => if |items| > 0 then Some(items[0]) else None
    case Some(JObject(members)) => if "0" in members then Some(members["0"]) else None
    case Some(JString(s)) => if |s| > 0 then Some(JString(s[..1])) else None
    case _ => None
  }

  /** `a ?? b`: the left operand unless it is `null` or `undefined`. */
  function Coalesce(a: Option<Json>, b: Option<Json>): Option<Json>
  {
    if a.None? || a == Some(JNull) then b else a
  }

  /** The string a value holds when `typeof value === 'string'`. */
  function AsString(value: Option<Json>): (r: Option<string>)
    ensures r.Some? <==> value.Some? && value.value.JString?
  {
    match value
    case Some(JString(s)) => Some(s)
    case _ => None
  }
}

=== FILE: keys.dfy ===
/**
 * The API key rotation state: the list of keys, the index of the key in use,
 * and a failure count per key index. The pure `KeyRing` value states what
 * each operation does; the `KeyManager` class holds the mutable state the
 * request loop works on and is proved against it.
 */
module Keys {

  /** Every key index `0 .. size - 1` mapped to zero failures. */
  function ZeroCounts(size: nat): (m: map<nat, nat>)
    ensures forall i: nat :: i in m <==> i < size
    ensures forall i :: i in m ==> m[i] == 0
  {
    if size == 0 then map[] else ZeroCounts(size - 1)[size - 1 := 0]
  }

  /** The key state: how many keys there are, the one in use and the failure counts. */
  datatype KeyRing = KeyRing(size: nat, current: nat, failures: map<nat, nat>)

  /** A well-formed state: at least one key, the current index in range, a count for every key and no other. */
  ghost predicate Wf(r: KeyRing) {
    r.size > 0 && r.current < r.size && forall i: nat :: i in r.failures <==> i < r.size
  }

  /** The state right after start-up: the first key in use, every count zero. */
  function Initial(size: nat): (r: KeyRing)
    requires size > 0
    ensures Wf(r) && r.current == 0 && !AnyFailed(r)
  {
    KeyRing(size, 0, ZeroCounts(size))
  }

  /** `rotateToNextApiKey`: move to the next key, wrapping after the last. */
  function Rotate(r: KeyRing): (r': KeyRing)
    requires r.size > 0
    ensures r'.size == r.size && r'.failures == r.failures
    ensures r.current < r.size ==> r'.current == if r.current + 1 == r.size then 0 else r.current + 1
    ensures Wf(r) ==> Wf(r')
  {
    r.(current := (r.current + 1) % r.size)
  }

  /** `markCurrentKeyAsFailed`: one more failure for the current key (a missing count reads as zero). */
  function MarkFailed(r: KeyRing): (r': KeyRing)
    ensures r'.size == r.size && r'.current == r.current
    ensures r.current in r'.failures
    ensures forall i :: i in r.failures ==> i in r'.failures
    ensures r'.failures[r.current] == (if r.current in r.failures then r.failures[r.current] else 0) + 1
    ensures forall i :: i in r.failures && i != r.current ==> r'.failures[i] == r.failures[i]
    ensures Wf(r) ==> Wf(r')
  {
    var count := if r.current in r.failures then r.failures[r.current] else 0;
    r.(failures := r.failures[r.current := count + 1])
  }

  /** `areAllKeysFailed`: every recorded count is positive. */
  predicate AllFailed(r: KeyRing) {
    forall i :: i in r.failures ==> r.failures[i] > 0
  }

  /** Some key has a positive count. */
  predicate AnyFailed(r: KeyRing) {
    exists i :: i in r.failures && r.failures[i] > 0
  }

  /** `resetAllKeyFailures`: the count of every key index set back to zero. */
  function ResetAll(r: KeyRing): (r': KeyRing)
    ensures r'.size == r.size && r'.current == r.current
    ensures forall i: nat :: i < r.size ==> i in r'.failures && r'.failures[i] == 0
    ensures forall i :: i in r.failures && i >= r.size ==> i in r'.failures && r'.failures[i] == r.failures[i]
    ensures Wf(r) ==> Wf(r') && !AnyFailed(r')
  {
    r.(failures := r.failures + ZeroCounts(r.size))
  }

  /** The state after `n` rotations. */
  function RotateTimes(r: KeyRing, n: nat): (r': KeyRing)
    requires r.size > 0
    ensures r'.size == r.size && r'.failures == r.failures
  {
    if n == 0 then r else Rotate(RotateTimes(r, n - 1))
  }

  /** `n` rotations advance the index by `n` modulo the number of keys and change nothing else. */
  lemma {:induction false} RotateTimesAdvances(r: KeyRing, n: nat)
    requires r.current < r.size
    ensures RotateTimes(r, n) == r.(current := (r.current + n) % r.size)
  {
    if n == 0 {
      ModUnique(r.current, r.size, 0, r.current);
    } else {
      RotateTimesAdvances(r, n - 1);
      RotateTimesStep(r, n);
      ModSucc(r.current + (n - 1), r.size);
    }
  }

  /** One rotation of a state with key `c` in use gives key `c + 1` modulo the number of keys. */
  lemma RotateAt(r: KeyRing, c: nat)
    requires r.size > 0
    ensures Rotate(r.(current := c)) == r.(current := (c + 1) % r.size)
  {
  }

  /** Rotating a state that is `n - 1` rotations past `r` gives the state `n` rotations past it. */
  lemma RotateTimesStep(r: KeyRing, n: nat)
    requires r.size > 0 && n > 0
    requires RotateTimes(r, n - 1) == r.(current := (r.current + (n - 1)) % r.size)
    ensures RotateTimes(r, n) == r.(current := ((r.current + (n - 1)) % r.size + 1) % r.size)
  {
    RotateAt(r, (r.current + (n - 1)) % r.size);
  }

  /** The quotient and remainder of `x` by `m` are the only ones with a remainder in `[0, m)`. */
  lemma ModUnique(x: int, m: int, q: int, r: int)
    requires m > 0 && 0 <= r < m && x == q * m + r
    ensures x % m == r && x / m == q
  {
    var d := x / m;
    assert x == d * m + x % m;
    var k := q - d;
    assert k * m == x % m - r by {
      assert k * m == q * m - d * m;
    }
  }

  /** Adding one commutes with taking the remainder. */
  lemma ModSucc(a: nat, m: nat)
    requires m > 0
    ensures (a % m + 1) % m == (a + 1) % m
  {
    var q, b := a / m, a % m;
    assert a == q * m + b;
    if b + 1 == m {
      ModUnique(a + 1, m, q + 1, 0);
      ModUnique(b + 1, m, 1, 0);
    } else {
      ModUnique(a + 1, m, q, b + 1);
      ModUnique(b + 1, m, 0, b + 1);
    }
  }

  /** Rotating once per key visits every key and comes back to the starting one. */
  lemma RotationCycles(r: KeyRing)
    requires Wf(r)
    ensures RotateTimes(r, r.size) == r
    ensures forall n: nat :: n < r.size ==> RotateTimes(r, n).current == (r.current + n) % r.size
  {
    RotateTimesAdvances(r, r.size);
    ModUnique(r.current + r.size, r.size, 1, r.current);
    forall n: nat | n < r.size
      ensures RotateTimes(r, n).current == (r.current + n) % r.size
    {
      RotateTimesAdvances(r, n);
    }
  }

  /** After marking the current key, all keys are failed exactly when every other key already was. */
  lemma MarkFailedAllFailed(r: KeyRing)
    requires Wf(r)
    ensures AllFailed(MarkFailed(r)) <==> forall i :: i in r.failures && i != r.current ==> r.failures[i] > 0
  {
  }

  /**
   * The module-level key state of the generator. The key list is fixed after
   * start-up; `currentKeyIndex` and `keyFailureCount` are updated in place.
   */
  class KeyManager {
    var apiKeys: seq<string>
    var currentKeyIndex: nat
    var keyFailureCount: map<nat, nat>

    /** The abstract state of the manager. */
    function State(): KeyRing
      reads this
    {
      KeyRing(|apiKeys|, currentKeyIndex, keyFailureCount)
    }

    ghost predicate Valid()
      reads this
    {
      Wf(State())
    }

    /** Start-up: the parsed keys, the first one in use, every count set to zero. */
    constructor (keys: seq<string>)
      requires |keys| > 0
      ensures Valid() && apiKeys == keys && State() == Initial(|keys|)
    {
      apiKeys := keys;
      currentKeyIndex := 0;
      keyFailureCount := map[];
      new;
      ResetAllKeyFailures();
    }

    /** `getCurrentApiKey`. */
    function CurrentApiKey(): (key: string)
      reads this
      requires Valid()
      ensures key in apiKeys && key == apiKeys[State().current]
    {
      apiKeys[currentKeyIndex]
    }

    /** `rotateToNextApiKey`. */
    method RotateToNextApiKey()
      requires Valid()
      modifies this
      ensures Valid() && apiKeys == old(apiKeys)
      ensures State() == Rotate(old(State()))
    {
      currentKeyIndex := (currentKeyIndex + 1) % |apiKeys|;
    }

    /** `markCurrentKeyAsFailed`. */
    method MarkCurrentKeyAsFailed()
      requires Valid()
      modifies this
      ensures Valid() && apiKeys == old(apiKeys)
      ensures State() == MarkFailed(old(State()))
    {
      var count := if currentKeyIndex in keyFailureCount then keyFailureCount[currentKeyIndex] else 0;
      keyFailureCount := keyFailureCount[currentKeyIndex := count + 1];
    }

    /** `areAllKeysFailed`: every count in the map is positive. */
    method AreAllKeysFailed() returns (allFailed: bool)
      requires Valid()
      ensures allFailed == AllFailed(State())
    {
      allFailed := true;
      var index := 0;
      while index < |apiKeys|
        invariant 0 <= index <= |apiKeys|
        invariant allFailed == forall i: nat :: i < index ==> keyFailureCount[i] > 0
      {
        if keyFailureCount[index] == 0 {
          allFailed := false;
        }
        index := index + 1;
      }
    }

    /** `resetAllKeyFailures`: set the count of every key index to zero. */
    method ResetAllKeyFailures()
      requires forall i :: i in keyFailureCount ==> i < |apiKeys|
      requires |apiKeys| > 0 ==> currentKeyIndex < |apiKeys|
      modifies this
      ensures apiKeys == old(apiKeys) && currentKeyIndex == old(currentKeyIndex)
      ensures State() == ResetAll(old(State()))
    {
      for index := 0 to |apiKeys|
        invariant apiKeys == old(apiKeys) && currentKeyIndex == old(currentKeyIndex)
        invariant keyFailureCount == old(keyFailureCount) + ZeroCounts(index)
      {
        keyFailureCount := keyFailureCount[index := 0];
      }
    }
  }
}

=== FILE: mime.dfy ===
/**
 * The audio content-type parser of the generator: a string such as
 * `audio/L16;codec=pcm;rate=24000` describes raw PCM samples, and the
 * parser turns it into a channel count, a sample rate and a sample width,
 * falling back silently to mono, 24000 Hz, 16 bits.
 */
module Mime {
  import opened Wrappers
  import opened Text

  /** The sample format of raw PCM audio (`audioOptions` in the source). */
  datatype AudioFormat = AudioFormat(numChannels: int, sampleRate: int, bitsPerSample: int)

  const DEFAULT_CHANNELS := 1
  const DEFAULT_SAMPLE_RATE := 24000
  const DEFAULT_BITS_PER_SAMPLE := 16
  const DEFAULT_FORMAT := AudioFormat(DEFAULT_CHANNELS, DEFAULT_SAMPLE_RATE, DEFAULT_BITS_PER_SAMPLE)

  /** Every piece trimmed (`.map((s) => s.trim())`). */
  function TrimAll(parts: seq<string>): seq<string>
  {
    seq(|parts|, i requires 0 <= i < |parts| => Trim(parts[i]))
  }

  /** The trimmed `;`-separated segments of a content type: the type first, then the parameters. */
  function Segments(mimeType: string): (segs: seq<string>)
    ensures |segs| >= 1
  {
    TrimAll(Split(mimeType, ';'))
  }

  /** The subtype of a `type/subtype` string, or `""` when there is no `/`. */
  function Subtype(fileType: string): string {
    var parts := Split(fileType, '/');
    if |parts| >= 2 then parts[1] else ""
  }

  /** The sample width an `L<digits>` subtype announces, if the subtype has that form. */
  function SubtypeBits(fileType: string): Option<int> {
    var format := Subtype(fileType);
    if |format| > 0 && format[0] == 'L' then ParseInt(format[1..]) else None
  }

  /** The sample rate a `rate=<digits>` parameter announces; other parameters announce none. */
  function RateParam(param: string): Option<int> {
    var kv := TrimAll(Split(param, '='));
    if kv[0] == "rate" && |kv| >= 2 then ParseInt(kv[1]) else None
  }

  /** The rate announced by the last parameter that announces one. */
  function LastRate(params: seq<string>): Option<int> {
    if |params| == 0 then None
    else if RateParam(params[|params| - 1]).Some? then RateParam(params[|params| - 1])
    else LastRate(params[..|params| - 1])
  }

  /** Extending the parameters read so far by one. */
  lemma LastRateStep(params: seq<string>, i: nat)
    requires i < |params|
    ensures LastRate(params[..i + 1])
         == if RateParam(params[i]).Some? then RateParam(params[i]) else LastRate(params[..i])
  {
    assert params[..i + 1][..i] == params[..i];
    assert params[..i + 1][i] == params[i];
  }

  /** What `parseAudioMimeType` returns for a content type that may be missing. */
  function MimeFormat(mimeType: Option<string>): AudioFormat {
    if mimeType.None? || mimeType.value == "" then DEFAULT_FORMAT
    else
      var segs := Segments(mimeType.value);
      AudioFormat(DEFAULT_CHANNELS,
                  LastRate(segs[1..]).GetOr(DEFAULT_SAMPLE_RATE),
                  SubtypeBits(segs[0]).GetOr(DEFAULT_BITS_PER_SAMPLE))
  }

  /**
   * `parseAudioMimeType`: read the sample width from the subtype, then let
   * every `rate` parameter in turn overwrite the sample rate.
   */
  method ParseAudioMimeType(mimeType: Option<string>) returns (audioOptions: AudioFormat)
    ensures audioOptions == MimeFormat(mimeType)
  {
    if mimeType.None? || mimeType.value == "" {
      return DEFAULT_FORMAT;
    }
    var segments := TrimAll(Split(mimeType.value, ';'));
    var fileType, params := segments[0], segments[1..];
    assert MimeFormat(mimeType) == AudioFormat(DEFAULT_CHANNELS, LastRate(params).GetOr(DEFAULT_SAMPLE_RATE),
                                               SubtypeBits(fileType).GetOr(DEFAULT_BITS_PER_SAMPLE));
    var format := Subtype(fileType);
    audioOptions := DEFAULT_FORMAT;
    if |format| > 0 && format[0] == 'L' {
      var bits := ParseInt(format[1..]);
      if bits.Some? {
        audioOptions := audioOptions.(bitsPerSample := bits.value);
      }
    }
    for i := 0 to |params|
      invariant audioOptions.numChannels == DEFAULT_CHANNELS
      invariant audioOptions.bitsPerSample == SubtypeBits(fileType).GetOr(DEFAULT_BITS_PER_SAMPLE)
      invariant audioOptions.sampleRate == LastRate(params[..i]).GetOr(DEFAULT_SAMPLE_RATE)
    {
      var sampleRate := RateParam(params[i]);
      LastRateStep(params, i);
      if sampleRate.Some? {
        audioOptions := audioOptions.(sampleRate := sampleRate.value);
      }
    }
    assert params[..|params|] == params;
  }

  /** A missing or empty content type gives the defaults, and every content type gives one channel. */
  lemma DefaultsAndMono(mimeType: Option<string>)
    ensures mimeType.None? || mimeType == Some("") ==> MimeFormat(mimeType) == AudioFormat(1, 24000, 16)
    ensures MimeFormat(mimeType).numChannels == 1
  {
  }

  /** Only an `L`-prefixed subtype can move the sample width away from 16. */
  lemma OnlyLSubtypeSetsBits(mimeType: string)
    requires |Subtype(Segments(mimeType)[0])| == 0 || Subtype(Segments(mimeType)[0])[0] != 'L'
    ensures MimeFormat(Some(mimeType)).bitsPerSample == 16
  {
  }

  /** The sample rate is the default or the value of one of the `rate` parameters. */
  lemma {:induction false} RateComesFromParam(params: seq<string>)
    ensures LastRate(params).Some? ==>
      exists i :: 0 <= i < |params| && RateParam(params[i]) == LastRate(params)
    ensures (forall i :: 0 <= i < |params| ==> RateParam(params[i]).None?) ==> LastRate(params).None?
  {
    if |params| > 0 {
      var n := |params| - 1;
      RateComesFromParam(params[..n]);
      if RateParam(params[n]).None? && LastRate(params).Some? {
        var i :| 0 <= i < n && RateParam(params[..n][i]) == LastRate(params[..n]);
        assert params[i] == params[..n][i];
      }
    }
  }

  /** A later `rate` parameter overrides every earlier one. */
  lemma LastRateWins(params: seq<string>, rate: int)
    requires |params| > 0 && RateParam(params[|params| - 1]) == Some(rate)
    ensures LastRate(params) == Some(rate)
  {
  }

  /** Parameters that announce no rate do not disturb the rate announced before them. */
  lemma {:induction false} LastRateIgnoresOtherParams(params: seq<string>, others: seq<string>)
    requires forall i :: 0 <= i < |others| ==> RateParam(others[i]).None?
    ensures LastRate(params + others) == LastRate(params)
  {
    if |others| > 0 {
      var n := |others| - 1;
      assert (params + others)[..|params + others| - 1] == params + others[..n];
      assert (params + others)[|params + others| - 1] == others[n];
      LastRateIgnoresOtherParams(params, others[..n]);
    } else {
      assert params + others == params;
    }
  }

  /** The type segment `audio/L<bits>` of a raw PCM content type. */
  function PcmFileType(bitsPerSample: nat): string {
    "audio/L" + NatToString(bitsPerSample)
  }

  /** The parameter `rate=<rate>`. */
  function RateParameter(sampleRate: nat): string {
    "rate=" + NatToString(sampleRate)
  }

  /** The content type that announces raw PCM of the given width and rate. */
  function PcmMimeType(bitsPerSample: nat, sampleRate: nat): string {
    PcmFileType(bitsPerSample) + ";" + RateParameter(sampleRate)
  }

  /** A character that is not a digit does not occur in a string of digits. */
  lemma NotInDigits(c: char, s: string)
    requires AllDigits(s) && !IsDigit(c)
    ensures c !in s
  {
  }

  /** The parameter `rate=<digits>` announces exactly that rate. */
  lemma RateParamOfPrinted(sampleRate: nat)
    ensures RateParam(RateParameter(sampleRate)) == Some(sampleRate)
  {
    var r := NatToString(sampleRate);
    NotInDigits('=', r);
    assert RateParameter(sampleRate) == Join(["rate", r], '=');
    SplitJoin(["rate", r], '=');
    TrimNoSpaceEnds("rate");
    TrimNoSpaceEnds(r);
    ParseIntNatToString(sampleRate);
  }

  /** The subtype `L<digits>` announces exactly that sample width. */
  lemma SubtypeBitsOfPrinted(bitsPerSample: nat)
    ensures SubtypeBits(PcmFileType(bitsPerSample)) == Some(bitsPerSample)
  {
    var b := NatToString(bitsPerSample);
    NotInDigits('/', b);
    assert PcmFileType(bitsPerSample) == Join(["audio", "L" + b], '/');
    SplitJoin(["audio", "L" + b], '/');
    assert ("L" + b)[1..] == b;
    ParseIntNatToString(bitsPerSample);
  }

  /** A piece of a content type that splitting on `;` and trimming leave as it is. */
  predicate IsSegment(s: string) {
    ';' !in s && Trim(s) == s
  }

  /** Every piece is a segment. */
  predicate AllSegments(parts: seq<string>) {
    forall i :: 0 <= i < |parts| ==> IsSegment(parts[i])
  }

  /** The printed type segment is a non-empty segment. */
  lemma PcmFileTypeIsSegment(bitsPerSample: nat)
    ensures PcmFileType(bitsPerSample) != "" && IsSegment(PcmFileType(bitsPerSample))
  {
    NotInDigits(';', NatToString(bitsPerSample));
    TrimNoSpaceEnds(PcmFileType(bitsPerSample));
  }

  /** The printed `rate` parameter is a segment. */
  lemma RateParameterIsSegment(sampleRate: nat)
    ensures IsSegment(RateParameter(sampleRate))
  {
    NotInDigits(';', NatToString(sampleRate));
    TrimNoSpaceEnds(RateParameter(sampleRate));
  }

  /** A content type assembled from trimmed segments parses segment by segment. */
  lemma FormatOfSegments(fileType: string, params: seq<string>)
    requires fileType != "" && IsSegment(fileType)
    requires AllSegments(params)
    ensures MimeFormat(Some(Join([fileType] + params, ';')))
         == AudioFormat(1, LastRate(params).GetOr(24000), SubtypeBits(fileType).GetOr(16))
  {
    var parts := [fileType] + params;
    assert parts[1..] == params;
    forall i | 0 <= i < |parts|
      ensures ';' !in parts[i] && Trim(parts[i]) == parts[i]
    {
      assert IsSegment(parts[i]) by {
        if i > 0 {
          assert parts[i] == params[i - 1];
        }
      }
    }
    var mimeType := Join(parts, ';');
    assert mimeType != "" by {
      assert mimeType[..|fileType|] == fileType;
    }
    SplitJoin(parts, ';');
    assert Segments(mimeType) == parts;
  }

  /** The parser reads back exactly the width and rate that `PcmMimeType` announces. */
  lemma ParsePrintedMimeType(bitsPerSample: nat, sampleRate: nat)
    ensures MimeFormat(Some(PcmMimeType(bitsPerSample, sampleRate)))
         == AudioFormat(1, sampleRate, bitsPerSample)
  {
    var fileType, param := PcmFileType(bitsPerSample), RateParameter(sampleRate);
    PcmFileTypeIsSegment(bitsPerSample);
    RateParameterIsSegment(sampleRate);
    assert AllSegments([param]);
    assert PcmMimeType(bitsPerSample, sampleRate) == Join([fileType] + [param], ';');
    FormatOfSegments(fileType, [param]);
    SubtypeBitsOfPrinted(bitsPerSample);
    RateParamOfPrinted(sampleRate);
  }

  /** A trailing `rate=<digits>` parameter decides the rate whatever comes before it. */
  lemma LastRateOfPrinted(params: seq<string>, sampleRate: nat)
    ensures LastRate(params + [RateParameter(sampleRate)]) == Some(sampleRate)
  {
    RateParamOfPrinted(sampleRate);
    LastRateWins(params + [RateParameter(sampleRate)], sampleRate);
  }

  /** Any other parameter placed before the `rate` parameter leaves the parsed format unchanged. */
  lemma ParsePrintedWithParam(bitsPerSample: nat, param: string, sampleRate: nat)
    requires IsSegment(param)
    ensures MimeFormat(Some(Join([PcmFileType(bitsPerSample)] + [param, RateParameter(sampleRate)], ';')))
         == AudioFormat(1, sampleRate, bitsPerSample)
  {
    var rate := RateParameter(sampleRate);
    PcmFileTypeIsSegment(bitsPerSample);
    RateParameterIsSegment(sampleRate);
    assert AllSegments([param, rate]);
    FormatOfSegments(PcmFileType(bitsPerSample), [param, rate]);
    LastRateOfPrinted([param], sampleRate);
    assert [param] + [rate] == [param, rate];
    SubtypeBitsOfPrinted(bitsPerSample);
  }

  /** The decimal renderings of the service's default sample width and rate. */
  lemma PrintedDefaults()
    ensures PcmFileType(16) == "audio/L16" && RateParameter(24000) == "rate=24000"
  {
    assert NatToString(16) == NatToString(1) + [Digit(6)];
    assert NatToString(24000) == NatToString(2400) + [Digit(0)];
    assert NatToString(2400) == NatToString(240) + [Digit(0)];
    assert NatToString(240) == NatToString(24) + [Digit(0)];
    assert NatToString(24) == NatToString(2) + [Digit(4)];
  }

  /** The short content type the speech service may send is the printed one for 16 bits at 24000 Hz. */
  lemma ShortServiceMimeTypeText()
    ensures "audio/L16;rate=24000" == PcmMimeType(16, 24000)
  {
    PrintedDefaults();
  }

  /** The content type the speech service sends, with its `codec` parameter. */
  lemma ServiceMimeTypeText()
    ensures "audio/L16;codec=pcm;rate=24000"
         == Join([PcmFileType(16)] + ["codec=pcm", RateParameter(24000)], ';')
  {
    PrintedDefaults();
    var parts := ["audio/L16", "codec=pcm", "rate=24000"];
    assert parts[1..] == ["codec=pcm", "rate=24000"];
    assert parts[1..][1..] == ["rate=24000"];
    assert Join(parts[1..], ';') == "codec=pcm" + [';'] + "rate=24000";
    assert Join(parts, ';') == "audio/L16" + [';'] + ("codec=pcm" + [';'] + "rate=24000");
    assert [PcmFileType(16)] + ["codec=pcm", RateParameter(24000)] == parts;
  }

  /** The short content type `audio/L16;rate=24000` gives the defaults. */
  lemma ShortServiceMimeType(mimeType: string)
    requires mimeType == "audio/L16;rate=24000"
    ensures MimeFormat(Some(mimeType)) == AudioFormat(1, 24000, 16)
  {
    ShortServiceMimeTypeText();
    ParsePrintedMimeType(16, 24000);
  }

  /** The content type the speech service reports, `audio/L16;codec=pcm;rate=24000`, gives the defaults too. */
  lemma ServiceMimeType(mimeType: string)
    requires mimeType == "audio/L16;codec=pcm;rate=24000"
    ensures MimeFormat(Some(mimeType)) == AudioFormat(1, 24000, 16)
  {
    ServiceMimeTypeText();
    TrimNoSpaceEnds("codec=pcm");
    ParsePrintedWithParam(16, "codec=pcm", 24000);
  }
}

=== FILE: retry.dfy ===
/**
 * The retry loop of `requestTextToSpeech`: it keeps posting until the
 * service returns audio or a fatal error, backing off exponentially on
 * retryable errors and rotating keys on rate limits, with a cool-down when
 * every key has been rate limited. The loop never gives up by itself; the
 * model runs it over a finite script of what the service answers and says
 * where the script ran out.
 */
module Retry {
  import opened Wrappers
  import opened Classify
  import opened Keys

  const ALL_KEYS_EXHAUSTED_WAIT_MS := 60000
  const INITIAL_RETRY_DELAY_MS := 10000
  const MAX_RETRY_DELAY_MS := 300000

  /** `Math.pow(2, n)`. */
  function Pow2(n: nat): (p: nat)
    ensures p >= 1
  {
    if n == 0 then 1 else 2 * Pow2(n - 1)
  }

  /** `calculateBackoffDelay`: `10000 * 2^attempt` milliseconds, capped at five minutes. */
  function CalculateBackoffDelay(attempt: nat): (delay: nat)
    ensures INITIAL_RETRY_DELAY_MS <= delay <= MAX_RETRY_DELAY_MS
    ensures delay == MAX_RETRY_DELAY_MS || delay == INITIAL_RETRY_DELAY_MS * Pow2(attempt)
  {
    var d := INITIAL_RETRY_DELAY_MS * Pow2(attempt);
    if d < MAX_RETRY_DELAY_MS then d else MAX_RETRY_DELAY_MS
  }

  lemma {:induction false} Pow2Monotone(a: nat, b: nat)
    requires a <= b
    ensures Pow2(a) <= Pow2(b)
  {
    if a < b {
      Pow2Monotone(a, b - 1);
    }
  }

  /** A later retry never waits less than an earlier one. */
  lemma BackoffMonotone(a: nat, b: nat)
    requires a <= b
    ensures CalculateBackoffDelay(a) <= CalculateBackoffDelay(b)
  {
    Pow2Monotone(a, b);
  }

  /** The delays double from ten seconds and stay at five minutes from the sixth retry on. */
  lemma BackoffSchedule(attempt: nat)
    ensures CalculateBackoffDelay(0) == 10000 && CalculateBackoffDelay(1) == 20000
    ensures CalculateBackoffDelay(2) == 40000 && CalculateBackoffDelay(3) == 80000
    ensures CalculateBackoffDelay(4) == 160000
    ensures attempt >= 5 ==> CalculateBackoffDelay(attempt) == 300000
  {
    assert Pow2(5) == 32;
    if attempt >= 5 {
      Pow2Monotone(5, attempt);
    }
  }

  /** What one pass of the loop's `try` block ends in: the audio, or the error it throws. */
  type Outcome = Result<TtsAudio, TtsError>

  /** What each request of a script of answers ends in. */
  function Outcomes(script: seq<Transport>): seq<Outcome>
  {
    seq(|script|, i requires 0 <= i < |script| => Attempt(script[i]))
  }

  /** The state the loop carries from one pass to the next. */
  datatype Engine = Engine(retryAttempt: nat, keys: KeyRing)

  /** How one pass of the loop ends. */
  datatype StepResult =
    | Returned(audio: TtsAudio)
    | Thrown(error: TtsError)
    | Continue(next: Engine, sleeps: seq<nat>)

  /**
   * One pass of the `catch` logic. A rate limit marks the current key, cools
   * down for a minute and resets the counts when every key is marked, rotates
   * to the next key and resets the retry counter; a fatal error is rethrown;
   * a retryable error increments the counter and waits the backoff delay.
   */
  function Step(e: Engine, attempt: Result<TtsAudio, TtsError>): (s: StepResult)
    requires Wf(e.keys)
    ensures s.Continue? ==> Wf(s.next.keys) && s.next.keys.size == e.keys.size
    ensures s.Thrown? <==> attempt.Failure? && attempt.error.FatalError?
    ensures s.Returned? <==> attempt.Success?
    ensures s.Returned? ==> attempt == Success(s.audio)
    ensures s.Thrown? ==> attempt == Failure(s.error)
  {
    match attempt
    case Success(audio) => Returned(audio)
    case Failure(error) =>
      match error
      case RateLimitError(_) =>
        var marked := MarkFailed(e.keys);
        var cooled := if AllFailed(marked) then ResetAll(marked) else marked;
        var sleeps := if AllFailed(marked) then [ALL_KEYS_EXHAUSTED_WAIT_MS] else [];
        Continue(Engine(0, Rotate(cooled)), sleeps)
      case FatalError(_, _) => Thrown(error)
      case RetryableError(_) =>
        Continue(Engine(e.retryAttempt + 1, e.keys), [CalculateBackoffDelay(e.retryAttempt)])
  }

  /** The outcome of running the loop over a script of answers. */
  datatype Run = Run(result: Option<Result<TtsAudio, TtsError>>, final: Engine, sleeps: seq<nat>, keysUsed: seq<nat>)

  /**
   * The loop over a script of answers, one per request: the result (`None`
   * when the script ran out and the loop would still be retrying), the final
   * state, the delays slept and the index of the key each request used.
   */
  function RunScript(e: Engine, outcomes: seq<Outcome>): (run: Run)
    requires Wf(e.keys)
    ensures Wf(run.final.keys) && run.final.keys.size == e.keys.size
    ensures |run.keysUsed| <= |outcomes|
    ensures forall i :: 0 <= i < |run.keysUsed| ==> run.keysUsed[i] < e.keys.size
    decreases |outcomes|, 1
  {
    if |outcomes| == 0 then Run(None, e, [], [])
    else Then(e, Step(e, outcomes[0]), outcomes[1..])
  }

  /** The run once the first pass from `e` ended as `s`, with the answers `rest` still to come. */
  function Then(e: Engine, s: StepResult, rest: seq<Outcome>): (run: Run)
    requires Wf(e.keys) && (s.Continue? ==> Wf(s.next.keys) && s.next.keys.size == e.keys.size)
    ensures Wf(run.final.keys) && run.final.keys.size == e.keys.size
    ensures |run.keysUsed| <= |rest| + 1
    ensures forall i :: 0 <= i < |run.keysUsed| ==> run.keysUsed[i] < e.keys.size
    decreases |rest| + 1, 0
  {
    match s
    case Returned(audio) => Run(Some(Success(audio)), e, [], [e.keys.current])
    case Thrown(error) => Run(Some(Failure(error)), e, [], [e.keys.current])
    case Continue(next, sleeps) => After(sleeps, [e.keys.current], RunScript(next, rest))
  }

  /** A fatal error ends the loop at once: nothing slept, no key marked or rotated. */
  lemma FatalEndsAtOnce(e: Engine, t: Outcome, rest: seq<Outcome>)
    requires Wf(e.keys) && t.Failure? && t.error.FatalError?
    ensures RunScript(e, [t] + rest) == Run(Some(t), e, [], [e.keys.current])
  {
    assert ([t] + rest)[0] == t;
  }

  /** Audio ends the loop at once with that audio. */
  lemma SuccessEndsAtOnce(e: Engine, t: Outcome, rest: seq<Outcome>)
    requires Wf(e.keys) && t.Success?
    ensures RunScript(e, [t] + rest) == Run(Some(t), e, [], [e.keys.current])
  {
    assert ([t] + rest)[0] == t;
  }

  /**
   * A rate limit resets the retry counter, moves to the next key, and cools
   * down for a minute with every count reset exactly when every other key was
   * already marked; otherwise only the current key's count goes up.
   */
  lemma RateLimitStep(e: Engine, message: string)
    requires Wf(e.keys)
    ensures var s := Step(e, Failure(RateLimitError(message)));
      var othersFailed := forall i :: i in e.keys.failures && i != e.keys.current ==> e.keys.failures[i] > 0;
      && s.Continue?
      && s.next.retryAttempt == 0
      && s.next.keys.current == (e.keys.current + 1) % e.keys.size
      && (othersFailed ==> s.sleeps == [ALL_KEYS_EXHAUSTED_WAIT_MS] && s.next.keys.failures == ZeroCounts(e.keys.size))
      && (!othersFailed ==> s.sleeps == [] && s.next.keys.failures == MarkFailed(e.keys).failures)
  {
    MarkFailedAllFailed(e.keys);
    var marked := MarkFailed(e.keys);
    if AllFailed(marked) {
      assert ResetAll(marked).failures == ZeroCounts(e.keys.size);
    }
  }

  /** A retryable error counts one more retry and waits the backoff delay for the previous count. */
  lemma RetryableStep(e: Engine, message: string)
    requires Wf(e.keys)
    ensures Step(e, Failure(RetryableError(message)))
         == Continue(Engine(e.retryAttempt + 1, e.keys), [CalculateBackoffDelay(e.retryAttempt)])
  {
  }

  /** Every delay the loop sleeps lies between ten seconds and five minutes. */
  lemma {:induction false} SleepsBounded(e: Engine, outcomes: seq<Outcome>)
    requires Wf(e.keys)
    ensures forall i :: 0 <= i < |RunScript(e, outcomes).sleeps| ==>
      INITIAL_RETRY_DELAY_MS <= RunScript(e, outcomes).sleeps[i] <= MAX_RETRY_DELAY_MS
    decreases |outcomes|
  {
    if |outcomes| > 0 {
      var s := Step(e, outcomes[0]);
      if s.Continue? {
        RunCons(e, outcomes);
        SleepsBounded(s.next, outcomes[1..]);
      }
    }
  }

  /** Every answer in the script is a retryable error. */
  predicate AllRetryable(outcomes: seq<Outcome>) {
    forall i :: 0 <= i < |outcomes| ==> outcomes[i].Failure? && outcomes[i].error.RetryableError?
  }

  /** Consecutive retryable errors sleep the backoff delays for counts `a, a + 1, ...` and leave the keys alone. */
  lemma {:induction false} RetryableRun(e: Engine, outcomes: seq<Outcome>)
    requires Wf(e.keys) && AllRetryable(outcomes)
    ensures var run := RunScript(e, outcomes);
      && run.result.None?
      && run.final == Engine(e.retryAttempt + |outcomes|, e.keys)
      && run.sleeps == seq(|outcomes|, i requires 0 <= i => CalculateBackoffDelay(e.retryAttempt + i))
      && run.keysUsed == seq(|outcomes|, _ => e.keys.current)
    decreases |outcomes|
  {
    if |outcomes| > 0 {
      var next := Engine(e.retryAttempt + 1, e.keys);
      assert Step(e, outcomes[0]) == Continue(next, [CalculateBackoffDelay(e.retryAttempt)]);
      assert AllRetryable(outcomes[1..]) by {
        forall i | 0 <= i < |outcomes[1..]|
          ensures outcomes[1..][i].Failure? && outcomes[1..][i].error.RetryableError?
        {
          assert outcomes[1..][i] == outcomes[i + 1];
        }
      }
      RetryableRun(next, outcomes[1..]);
    }
  }

  /** From the start state, the sleeps are 10, 20, 40, 80 and 160 seconds and then five minutes each. */
  lemma RetryableRunFromStart(keys: KeyRing, outcomes: seq<Outcome>)
    requires Wf(keys) && AllRetryable(outcomes)
    ensures var sleeps := RunScript(Engine(0, keys), outcomes).sleeps;
      && |sleeps| == |outcomes|
      && (|outcomes| >= 5 ==> sleeps[..5] == [10000, 20000, 40000, 80000, 160000])
      && forall i :: 5 <= i < |outcomes| ==> sleeps[i] == 300000
  {
    RetryableRun(Engine(0, keys), outcomes);
    var sleeps := RunScript(Engine(0, keys), outcomes).sleeps;
    forall i | 0 <= i < |outcomes|
      ensures sleeps[i] == CalculateBackoffDelay(i)
    {
    }
    BackoffSchedule(0);
    forall i | 5 <= i < |outcomes|
      ensures sleeps[i] == 300000
    {
      BackoffSchedule(i);
    }
  }

  /** The failure counts after keys `0 .. k - 1` were each rate limited once from clean counts. */
  function MarkedCounts(size: nat, k: nat): (m: map<nat, nat>)
    requires k <= size
    ensures forall i: nat :: i in m <==> i < size
    ensures forall i :: i in m ==> m[i] == if i < k then 1 else 0
  {
    if k == 0 then ZeroCounts(size) else MarkedCounts(size, k - 1)[k - 1 := 1]
  }

  /** The key state after the first `k` keys, starting from the first, were each rate limited once. */
  function Marked(size: nat, k: nat): (r: KeyRing)
    requires k < size
    ensures Wf(r)
  {
    KeyRing(size, k, MarkedCounts(size, k))
  }

  /** One more rate limit marks the current key and moves on; the last one cools down and starts over. */
  lemma RateLimitFromMarked(size: nat, k: nat, retryAttempt: nat, message: string)
    requires k < size
    ensures var s := Step(Engine(retryAttempt, Marked(size, k)), Failure(RateLimitError(message)));
      && (k + 1 < size ==> s == Continue(Engine(0, Marked(size, k + 1)), []))
      && (k + 1 == size ==> s == Continue(Engine(0, Initial(size)), [ALL_KEYS_EXHAUSTED_WAIT_MS]))
  {
    var marked := MarkFailed(Marked(size, k));
    assert marked.failures == MarkedCounts(size, k + 1);
    if k + 1 < size {
      assert marked.failures[size - 1] == 0;
    } else {
      assert AllFailed(marked);
      assert ResetAll(marked).failures == ZeroCounts(size);
    }
  }

  /** Every answer in the script is a rate limit. */
  predicate AllRateLimited(outcomes: seq<Outcome>) {
    forall i :: 0 <= i < |outcomes| ==> outcomes[i].Failure? && outcomes[i].error.RateLimitError?
  }

  /** The answers after the first of a script of rate limits are rate limits too. */
  lemma RateLimitedRest(outcomes: seq<Outcome>)
    requires |outcomes| > 0 && AllRateLimited(outcomes)
    ensures AllRateLimited(outcomes[1..])
  {
    forall i | 0 <= i < |outcomes| - 1
      ensures outcomes[1..][i].Failure? && outcomes[1..][i].error.RateLimitError?
    {
      assert outcomes[1..][i] == outcomes[i + 1];
    }
  }

  /** A rate limit on a key other than the last, from a marked state, moves to the next key without sleeping. */
  lemma RateLimitRunStep(size: nat, j: nat, retryAttempt: nat, outcomes: seq<Outcome>)
    requires j + 1 < size && |outcomes| > 0 && outcomes[0].Failure? && outcomes[0].error.RateLimitError?
    ensures RunScript(Engine(retryAttempt, Marked(size, j)), outcomes)
         == After([], [j], RunScript(Engine(0, Marked(size, j + 1)), outcomes[1..]))
  {
    var e := Engine(retryAttempt, Marked(size, j));
    var message := outcomes[0].error.message;
    assert outcomes[0] == Failure(RateLimitError(message));
    RateLimitFromMarked(size, j, retryAttempt, message);
    RunCons(e, outcomes);
  }

  /**
   * While fewer rate limits than keys have arrived, each one marks the key in
   * use and moves to the next, without sleeping: from key `j`, the run ends on
   * key `k = j + |outcomes|` with keys `j .. k - 1` marked.
   */
  lemma {:induction false} RateLimitRun(size: nat, j: nat, k: nat, retryAttempt: nat, outcomes: seq<Outcome>)
    requires k == j + |outcomes| && k < size && AllRateLimited(outcomes)
    ensures var run := RunScript(Engine(retryAttempt, Marked(size, j)), outcomes);
      && run.result.None? && run.sleeps == []
      && run.final == Engine(if |outcomes| == 0 then retryAttempt else 0, Marked(size, k))
      && |run.keysUsed| == |outcomes| && forall i :: 0 <= i < |outcomes| ==> run.keysUsed[i] == j + i
    decreases |outcomes|
  {
    if |outcomes| == 0 {
      assert k == j;
    } else {
      var rest := outcomes[1..];
      RateLimitedRest(outcomes);
      RateLimitRun(size, j + 1, k, 0, rest);
      RateLimitRunStep(size, j, retryAttempt, outcomes);
      AfterKey(j, RunScript(Engine(0, Marked(size, j + 1)), rest), |rest|);
    }
  }

  /** Key `j` used without a pause in front of a run that used the keys from `j + 1` on in order. */
  lemma AfterKey(j: nat, run: Run, n: nat)
    requires |run.keysUsed| == n && forall i :: 0 <= i < n ==> run.keysUsed[i] == j + 1 + i
    ensures var r := After([], [j], run);
      && r.result == run.result && r.final == run.final && r.sleeps == run.sleeps
      && |r.keysUsed| == n + 1 && forall i :: 0 <= i < n + 1 ==> r.keysUsed[i] == j + i
  {
    var none: seq<nat> := [];
    assert none + run.sleeps == run.sleeps;
    var used := [j] + run.keysUsed;
    forall i | 0 <= i < n + 1
      ensures used[i] == j + i
    {
      if i > 0 {
        assert used[i] == run.keysUsed[i - 1];
      }
    }
  }

  /** The run of a script whose first answer does not end the loop: that step, then the rest. */
  lemma RunCons(e: Engine, outcomes: seq<Outcome>)
    requires Wf(e.keys) && |outcomes| > 0 && Step(e, outcomes[0]).Continue?
    ensures var s := Step(e, outcomes[0]);
      RunScript(e, outcomes) == After(s.sleeps, [e.keys.current], RunScript(s.next, outcomes[1..]))
  {
  }

  /** The run of one answer. */
  lemma RunOne(e: Engine, t: Outcome)
    requires Wf(e.keys)
    ensures var s := Step(e, t);
      RunScript(e, [t]) == if s.Continue? then Run(None, s.next, s.sleeps, [e.keys.current])
                           else Run(Some(t), e, [], [e.keys.current])
  {
    var s := Step(e, t);
    assert [t][1..] == [];
    if s.Continue? {
      assert RunScript(s.next, []) == Run(None, s.next, [], []);
      assert s.sleeps + [] == s.sleeps;
    }
  }

  /** Two stretches of sleeps and keys, one after the other. */
  lemma AfterAfter(sleeps1: seq<nat>, used1: seq<nat>, sleeps2: seq<nat>, used2: seq<nat>, run: Run)
    ensures After(sleeps1, used1, After(sleeps2, used2, run)) == After(sleeps1 + sleeps2, used1 + used2, run)
  {
    assert sleeps1 + (sleeps2 + run.sleeps) == (sleeps1 + sleeps2) + run.sleeps;
    assert used1 + (used2 + run.keysUsed) == (used1 + used2) + run.keysUsed;
  }

  /** Running two scripts one after the other is running their concatenation, unless the first one already ended the loop. */
  lemma {:induction false} RunScriptAppend(e: Engine, a: seq<Outcome>, b: seq<Outcome>)
    requires Wf(e.keys)
    ensures var ra := RunScript(e, a);
      RunScript(e, a + b) == if ra.result.None? then After(ra.sleeps, ra.keysUsed, RunScript(ra.final, b)) else ra
    decreases |a|
  {
    if |a| == 0 {
      assert a + b == b;
      var rb := RunScript(e, b);
      assert [] + rb.sleeps == rb.sleeps && [] + rb.keysUsed == rb.keysUsed;
    } else {
      assert (a + b)[0] == a[0] && (a + b)[1..] == a[1..] + b;
      var s := Step(e, a[0]);
      if s.Continue? {
        RunScriptAppend(s.next, a[1..], b);
        var ra := RunScript(s.next, a[1..]);
        if ra.result.None? {
          AfterAfter(s.sleeps, [e.keys.current], ra.sleeps, ra.keysUsed, RunScript(ra.final, b));
        }
      }
    }
  }

  /**
   * The rate limits that reach the last key: from key `j` with keys `0 .. j - 1`
   * marked, one rate limit per remaining key visits keys `j .. size - 1`, then
   * cools down once, resets every count and wraps round to the first key.
   */
  lemma {:induction false} RateLimitRunToEnd(size: nat, j: nat, retryAttempt: nat, outcomes: seq<Outcome>)
    requires j + |outcomes| == size && |outcomes| > 0 && AllRateLimited(outcomes)
    ensures var run := RunScript(Engine(retryAttempt, Marked(size, j)), outcomes);
      && run.result.None? && run.sleeps == [ALL_KEYS_EXHAUSTED_WAIT_MS]
      && run.final == Engine(0, Initial(size))
      && |run.keysUsed| == |outcomes| && forall i :: 0 <= i < |outcomes| ==> run.keysUsed[i] == j + i
    decreases |outcomes|
  {
    var e := Engine(retryAttempt, Marked(size, j));
    var rest := outcomes[1..];
    var message := outcomes[0].error.message;
    assert outcomes[0] == Failure(RateLimitError(message));
    if |outcomes| == 1 {
      RateLimitFromMarked(size, j, retryAttempt, message);
      RunCons(e, outcomes);
      assert RunScript(Engine(0, Initial(size)), rest) == Run(None, Engine(0, Initial(size)), [], []);
      var none: seq<nat> := [];
      assert [ALL_KEYS_EXHAUSTED_WAIT_MS] + none == [ALL_KEYS_EXHAUSTED_WAIT_MS];
    } else {
      RateLimitedRest(outcomes);
      RateLimitRunToEnd(size, j + 1, 0, rest);
      RateLimitRunStep(size, j, retryAttempt, outcomes);
      AfterKey(j, RunScript(Engine(0, Marked(size, j + 1)), rest), |rest|);
    }
  }

  /** One rate limit per key, starting fresh, uses every key once in order, sleeps one minute once and comes back to the start state. */
  lemma RateLimitEveryKey(size: nat, outcomes: seq<Outcome>)
    requires size > 0 && |outcomes| == size && AllRateLimited(outcomes)
    ensures var run := RunScript(Engine(0, Initial(size)), outcomes);
      && run.result.None?
      && run.sleeps == [ALL_KEYS_EXHAUSTED_WAIT_MS] && run.final == Engine(0, Initial(size))
      && |run.keysUsed| == size && forall i :: 0 <= i < size ==> run.keysUsed[i] == i
  {
    assert Marked(size, 0) == Initial(size);
    RateLimitRunToEnd(size, 0, 0, outcomes);
  }

  /** With two keys, two rate limits in a row: key 0 is marked, then key 1, then a cool-down and back to key 0. */
  lemma TwoKeysTwoRateLimits(t0: Outcome, t1: Outcome)
    requires AllRateLimited([t0, t1])
    ensures var first := RunScript(Engine(0, Initial(2)), [t0]);
      && first.final.keys.current == 1 && first.final.keys.failures == map[0 := 1, 1 := 0] && first.sleeps == []
    ensures var both := RunScript(Engine(0, Initial(2)), [t0, t1]);
      && both.final == Engine(0, Initial(2)) && both.sleeps == [ALL_KEYS_EXHAUSTED_WAIT_MS] && both.keysUsed == [0, 1]
  {
    assert AllRateLimited([t0]) by {
      assert [t0][0] == [t0, t1][0];
    }
    assert Marked(2, 0) == Initial(2);
    RateLimitRun(2, 0, 1, 0, [t0]);
    assert Marked(2, 1).failures == map[0 := 1, 1 := 0];
    RateLimitEveryKey(2, [t0, t1]);
  }

  /** The key names the requests used. */
  function KeyNames(apiKeys: seq<string>, used: seq<nat>): seq<string>
    requires forall i :: 0 <= i < |used| ==> used[i] < |apiKeys|
  {
    seq(|used|, i requires 0 <= i < |used| => apiKeys[used[i]])
  }

  /** Naming one more key used. */
  lemma KeyNamesAppend(apiKeys: seq<string>, used: seq<nat>, k: nat)
    requires forall i :: 0 <= i < |used| ==> used[i] < |apiKeys|
    requires k < |apiKeys|
    ensures KeyNames(apiKeys, used + [k]) == KeyNames(apiKeys, used) + [apiKeys[k]]
  {
  }

  /** The run that remains after `sleeps` were slept and the keys `used` were used. */
  function After(sleeps: seq<nat>, used: seq<nat>, run: Run): Run {
    Run(run.result, run.final, sleeps + run.sleeps, used + run.keysUsed)
  }

  /**
   * The `catch` block for a rate limit or a retryable error: the new retry
   * counter and the delays slept, with the key manager updated.
   */
  method HandleError(km: KeyManager, retryAttempt: nat, error: TtsError) returns (nextAttempt: nat, delays: seq<nat>)
    requires km.Valid() && !error.FatalError?
    modifies km
    ensures km.Valid() && km.apiKeys == old(km.apiKeys)
    ensures Step(Engine(retryAttempt, old(km.State())), Failure(error)) == Continue(Engine(nextAttempt, km.State()), delays)
  {
    if error.RateLimitError? {
      km.MarkCurrentKeyAsFailed();
      var allFailed := km.AreAllKeysFailed();
      delays := [];
      if allFailed {
        delays := [ALL_KEYS_EXHAUSTED_WAIT_MS];
        km.ResetAllKeyFailures();
      }
      km.RotateToNextApiKey();
      nextAttempt := 0;
    } else {
      nextAttempt := retryAttempt + 1;
      delays := [CalculateBackoffDelay(nextAttempt - 1)];
    }
  }

  /** The prefix of `i + 1` answers extends the prefix of `i` by answer `i`, and the rest follows it. */
  lemma PrefixExtends(outcomes: seq<Outcome>, i: nat)
    requires i < |outcomes|
    ensures outcomes[..i] + [outcomes[i]] == outcomes[..i + 1]
    ensures outcomes[..i + 1] + outcomes[i + 1..] == outcomes
  {
  }

  /**
   * One more pass of the loop, seen from the start: if the run over the first
   * `i` answers is still retrying in state `e`, the run over `i + 1` answers
   * continues from the step's next state, or the whole run ends with answer `i`.
   */
  lemma RunPrefixStep(start: Engine, outcomes: seq<Outcome>, i: nat, e: Engine, sleeps: seq<nat>, used: seq<nat>)
    requires Wf(start.keys) && Wf(e.keys) && i < |outcomes|
    requires RunScript(start, outcomes[..i]) == Run(None, e, sleeps, used)
    ensures var s := Step(e, outcomes[i]);
      && (s.Continue? ==> RunScript(start, outcomes[..i + 1]) == Run(None, s.next, sleeps + s.sleeps, used + [e.keys.current]))
      && (!s.Continue? ==> RunScript(start, outcomes) == Run(Some(outcomes[i]), e, sleeps, used + [e.keys.current]))
  {
    PrefixExtends(outcomes, i);
    RunScriptAppend(start, outcomes[..i], [outcomes[i]]);
    RunOne(e, outcomes[i]);
    if !Step(e, outcomes[i]).Continue? {
      RunScriptAppend(start, outcomes[..i + 1], outcomes[i + 1..]);
      assert sleeps + [] == sleeps;
    }
  }

  /**
   * `requestTextToSpeech` over a script of answers: each pass takes the
   * current key, posts, and handles the outcome as the `catch` block does.
   * The result is `None` when the script ran out while still retrying.
   */
  method RequestTextToSpeech(km: KeyManager, script: seq<Transport>)
    returns (result: Option<Outcome>, sleeps: seq<nat>, usedKeys: seq<string>)
    requires km.Valid()
    modifies km
    ensures km.Valid() && km.apiKeys == old(km.apiKeys)
    ensures var run := RunScript(Engine(0, old(km.State())), Outcomes(script));
      && result == run.result && sleeps == run.sleeps && km.State() == run.final.keys
      && usedKeys == KeyNames(km.apiKeys, run.keysUsed)
  {
    ghost var start := Engine(0, km.State());
    ghost var outcomes := Outcomes(script);
    ghost var used: seq<nat> := [];
    var retryAttempt := 0;
    sleeps, usedKeys := [], [];
    var i := 0;
    while i < |script|
      invariant 0 <= i <= |script|
      invariant km.Valid() && km.apiKeys == old(km.apiKeys)
      invariant RunScript(start, outcomes[..i]) == Run(None, Engine(retryAttempt, km.State()), sleeps, used)
      invariant usedKeys == KeyNames(km.apiKeys, used)
      decreases |script| - i
    {
      ghost var e := Engine(retryAttempt, km.State());
      var currentKey := km.CurrentApiKey();
      var attempt := Attempt(script[i]);
      assert attempt == outcomes[i];
      RunPrefixStep(start, outcomes, i, e, sleeps, used);
      KeyNamesAppend(km.apiKeys, used, km.currentKeyIndex);
      usedKeys := usedKeys + [currentKey];
      used := used + [km.currentKeyIndex];
      if attempt.Success? || attempt.error.FatalError? {
        return Some(attempt), sleeps, usedKeys;
      }
      var delays;
      retryAttempt, delays := HandleError(km, retryAttempt, attempt.error);
      sleeps := sleeps + delays;
      i := i + 1;
    }
    assert outcomes[..i] == outcomes;
    result := None;
  }
}

=== FILE: text.dfy ===
/**
 * The few JavaScript string operations the generator relies on:
 * `String.prototype.trim`, `String.prototype.split` with a one-character
 * separator, `Number.parseInt(s, 10)` and the decimal rendering of an integer.
 */
module Text {
  import opened Wrappers

  /** JavaScript WhiteSpace and LineTerminator code points (what `trim` and `parseInt` skip). */
  predicate IsSpace(c: char) {
    || c == ' ' || c == '\t' || c == '\n' || c == '\r'
    || c == '\U{000B}' || c == '\U{000C}' || c == '\U{00A0}' || c == '\U{1680}'
    || ('\U{2000}' <= c <= '\U{200A}')
    || c == '\U{2028}' || c == '\U{2029}' || c == '\U{202F}' || c == '\U{205F}'
    || c == '\U{3000}' || c == '\U{FEFF}'
  }

  /** `s` with its leading white space removed. */
  function TrimStart(s: string): string {
    if |s| > 0 && IsSpace(s[0]) then TrimStart(s[1..]) else s
  }

  /** `s` with its trailing white space removed. */
  function TrimEnd(s: string): string {
    if |s| > 0 && IsSpace(s[|s| - 1]) then TrimEnd(s[..|s| - 1]) else s
  }

  /**
   * `String.prototype.trim`: the result is no longer than `s`, has no white
   * space at either end, and is empty exactly when `s` is all white space.
   */
  function Trim(s: string): (r: string)
    ensures |r| <= |s|
    ensures |r| > 0 ==> !IsSpace(r[0]) && !IsSpace(r[|r| - 1])
    ensures r == "" <==> forall i :: 0 <= i < |s| ==> IsSpace(s[i])
  {
    TrimStartShape(s);
    TrimEndShape(TrimStart(s));
    TrimEnd(TrimStart(s))
  }

  /** `TrimStart` removes exactly the white space before the first other character. */
  lemma {:induction false} TrimStartShape(s: string)
    ensures var r := TrimStart(s);
      && |r| <= |s| && r == s[|s| - |r|..]
      && (forall i :: 0 <= i < |s| - |r| ==> IsSpace(s[i]))
      && (|r| > 0 ==> !IsSpace(r[0]))
  {
    if |s| > 0 && IsSpace(s[0]) {
      TrimStartShape(s[1..]);
    }
  }

  /** `TrimEnd` removes exactly the white space after the last other character. */
  lemma {:induction false} TrimEndShape(s: string)
    ensures var r := TrimEnd(s);
      && |r| <= |s| && r == s[..|r|]
      && (forall i :: |r| <= i < |s| ==> IsSpace(s[i]))
      && (|r| > 0 ==> !IsSpace(r[|r| - 1]))
  {
    if |s| > 0 && IsSpace(s[|s| - 1]) {
      TrimEndShape(s[..|s| - 1]);
    }
  }

  /**
   * Trimming keeps the contiguous piece `s[k..k + |Trim(s)|]` of `s`, drops only
   * white space around it, and leaves no white space at either end.
   */
  lemma TrimShape(s: string) returns (k: nat)
    ensures k + |Trim(s)| <= |s| && Trim(s) == s[k..k + |Trim(s)|]
    ensures forall i :: 0 <= i < k ==> IsSpace(s[i])
    ensures forall i :: k + |Trim(s)| <= i < |s| ==> IsSpace(s[i])
    ensures |Trim(s)| > 0 ==> !IsSpace(Trim(s)[0]) && !IsSpace(Trim(s)[|Trim(s)| - 1])
  {
    var t := TrimStart(s);
    var r := TrimEnd(t);
    TrimStartShape(s);
    TrimEndShape(t);
    k := |s| - |t|;
    assert r == t[..|r|];
    assert r == s[k..k + |r|];
    forall i | k + |r| <= i < |s| ensures IsSpace(s[i]) {
      assert s[i] == t[i - k];
    }
    if |r| > 0 {
      assert r[0] == t[0];
    }
  }

  /** `trim` is idempotent. */
  lemma TrimIdempotent(s: string)
    ensures Trim(Trim(s)) == Trim(s)
  {
    var r := Trim(s);
    var _ := TrimShape(s);
    assert TrimStart(r) == r;
    assert TrimEnd(r) == r;
  }

  /** A string without white space characters at its ends is unchanged by `trim`. */
  lemma TrimNoSpaceEnds(s: string)
    requires |s| > 0 ==> !IsSpace(s[0]) && !IsSpace(s[|s| - 1])
    ensures Trim(s) == s
  {
    assert TrimStart(s) == s;
  }

  /** The parts joined back together with the separator between them (`Array.prototype.join`). */
  function Join(parts: seq<string>, sep: char): string {
    if |parts| == 0 then ""
    else if |parts| == 1 then parts[0]
    else parts[0] + [sep] + Join(parts[1..], sep)
  }

  /**
   * `s.split(sep)` for a one-character separator: the maximal pieces between
   * separators, always at least one piece (`"".split(";")` is `[""]`).
   */
  function Split(s: string, sep: char): (parts: seq<string>)
    ensures |parts| >= 1
    ensures forall i :: 0 <= i < |parts| ==> sep !in parts[i]
  {
    if |s| == 0 then [""]
    else
      var rest := Split(s[1..], sep);
      if s[0] == sep then [""] + rest
      else [[s[0]] + rest[0]] + rest[1..]
  }

  /** Joining the pieces of a split with the separator gives back the original string. */
  lemma {:induction false} JoinSplit(s: string, sep: char)
    ensures Join(Split(s, sep), sep) == s
  {
    if |s| > 0 {
      var rest := Split(s[1..], sep);
      JoinSplit(s[1..], sep);
      var parts := Split(s, sep);
      if s[0] == sep {
        assert parts[1..] == rest;
      } else {
        assert parts[1..] == rest[1..];
        if |rest| > 1 {
          assert Join(rest, sep) == rest[0] + [sep] + Join(rest[1..], sep);
        }
        assert s == [s[0]] + s[1..];
      }
    }
  }

  /** A string that does not contain the separator splits into itself alone. */
  lemma {:induction false} SplitWithoutSeparator(s: string, sep: char)
    requires sep !in s
    ensures Split(s, sep) == [s]
  {
    if |s| > 0 {
      assert sep !in s[1..];
      SplitWithoutSeparator(s[1..], sep);
      assert [s[0]] + s[1..] == s;
    }
  }

  /** Splitting `p + [sep] + t`, with `p` free of the separator, yields `p` and then the pieces of `t`. */
  lemma {:induction false} SplitAtFirstSeparator(p: string, t: string, sep: char)
    requires sep !in p
    ensures Split(p + [sep] + t, sep) == [p] + Split(t, sep)
  {
    var s := p + [sep] + t;
    if |p| == 0 {
      assert s[1..] == t;
    } else {
      assert s[1..] == p[1..] + [sep] + t;
      assert sep !in p[1..];
      SplitAtFirstSeparator(p[1..], t, sep);
      assert [p[0]] + p[1..] == p;
    }
  }

  /** `split` inverts `join` whenever no part contains the separator. */
  lemma {:induction false} SplitJoin(parts: seq<string>, sep: char)
    requires |parts| >= 1
    requires forall i :: 0 <= i < |parts| ==> sep !in parts[i]
    ensures Split(Join(parts, sep), sep) == parts
  {
    if |parts| == 1 {
      SplitWithoutSeparator(parts[0], sep);
    } else {
      SplitJoin(parts[1..], sep);
      SplitAtFirstSeparator(parts[0], Join(parts[1..], sep), sep);
      assert [parts[0]] + parts[1..] == parts;
    }
  }

  predicate IsDigit(c: char) {
    '0' <= c <= '9'
  }

  predicate AllDigits(s: string) {
    forall i :: 0 <= i < |s| ==> IsDigit(s[i])
  }

  /** The longest prefix of `s` made of decimal digits. */
  function LeadingDigits(s: string): (ds: string)
    ensures AllDigits(ds)
  {
    if |s| > 0 && IsDigit(s[0]) then [s[0]] + LeadingDigits(s[1..]) else ""
  }

  /** `LeadingDigits` is a prefix of its argument and stops at the first character that is not a digit. */
  lemma {:induction false} LeadingDigitsShape(s: string)
    ensures var ds := LeadingDigits(s);
      && |ds| <= |s| && ds == s[..|ds|]
      && (|ds| < |s| ==> !IsDigit(s[|ds|]))
  {
    if |s| > 0 && IsDigit(s[0]) {
      LeadingDigitsShape(s[1..]);
    }
  }

  /** The value of a string of decimal digits, most significant first. */
  function DigitsValue(ds: string): nat
    requires AllDigits(ds)
  {
    if |ds| == 0 then 0
    else DigitsValue(ds[..|ds| - 1]) * 10 + (ds[|ds| - 1] as int - '0' as int)
  }

  /** The value of the leading digits of `body`, or `None` when it does not start with a digit. */
  function ParseDigits(body: string): (r: Option<nat>)
    ensures r.None? <==> |body| == 0 || !IsDigit(body[0])
  {
    var ds := LeadingDigits(body);
    if |ds| == 0 then None else Some(DigitsValue(ds))
  }

  /**
   * `Number.parseInt(s, 10)`: skip leading white space, read an optional sign
   * and then the leading digits; no digits gives `NaN`, here `None`.
   */
  function ParseInt(s: string): (r: Option<int>)
    ensures AllDigits(s) ==> r == if s == "" then None else Some(DigitsValue(s))
    ensures |s| > 0 && !IsSpace(s[0]) && !IsDigit(s[0]) && s[0] != '-' && s[0] != '+' ==> r.None?
  {
    assert AllDigits(s) ==> LeadingDigits(s) == s by {
      if AllDigits(s) {
        LeadingDigitsOfDigits(s);
      }
    }
    var t := TrimStart(s);
    var negative := |t| > 0 && t[0] == '-';
    var body := if |t| > 0 && (t[0] == '-' || t[0] == '+') then t[1..] else t;
    match ParseDigits(body)
    case None => None
    case Some(n) =>
      var v: int := n;
      Some(if negative then -v else v)
  }

  /** Leading white space is skipped up to the first other character. */
  lemma {:induction false} TrimStartAfterSpace(ws: string, s: string)
    requires forall i :: 0 <= i < |ws| ==> IsSpace(ws[i])
    requires |s| > 0 ==> !IsSpace(s[0])
    ensures TrimStart(ws + s) == s
  {
    if |ws| > 0 {
      assert (ws + s)[1..] == ws[1..] + s;
      TrimStartAfterSpace(ws[1..], s);
    }
  }

  /** The digit run of `ds + rest` is `ds` when `rest` does not go on with a digit. */
  lemma {:induction false} LeadingDigitsAppend(ds: string, rest: string)
    requires AllDigits(ds)
    requires |rest| > 0 ==> !IsDigit(rest[0])
    ensures LeadingDigits(ds + rest) == ds
  {
    if |ds| > 0 {
      assert (ds + rest)[1..] == ds[1..] + rest;
      LeadingDigitsAppend(ds[1..], rest);
      assert [ds[0]] + ds[1..] == ds;
    }
  }

  /** `parseInt` skips leading white space. */
  lemma ParseIntAfterSpace(ws: string, t: string)
    requires forall i :: 0 <= i < |ws| ==> IsSpace(ws[i])
    requires |t| > 0 ==> !IsSpace(t[0])
    ensures ParseInt(ws + t) == ParseInt(t)
  {
    TrimStartAfterSpace(ws, t);
    assert TrimStart(t) == t;
  }

  /** The leading digits of `ds + rest` are `ds` when `rest` does not go on with a digit. */
  lemma ParseDigitsAppend(ds: string, rest: string)
    requires |ds| > 0 && AllDigits(ds)
    requires |rest| > 0 ==> !IsDigit(rest[0])
    ensures ParseDigits(ds + rest) == Some(DigitsValue(ds))
  {
    LeadingDigitsAppend(ds, rest);
  }

  /**
   * `parseInt` skips the white space before `start`, reads the optional sign
   * at `start` and then the digits from `from` up to the first character
   * that is not one, at `end`, ignoring whatever follows.
   */
  lemma ParseIntAt(s: string, start: nat, from: nat, end: nat)
    requires start <= from < end <= |s|
    requires forall i :: 0 <= i < start ==> IsSpace(s[i])
    requires from == start || (from == start + 1 && (s[start] == '-' || s[start] == '+'))
    requires forall i :: from <= i < end ==> IsDigit(s[i])
    requires end < |s| ==> !IsDigit(s[end])
    ensures var v: int := DigitsValue(s[from..end]);
      ParseInt(s) == Some(if from > start && s[start] == '-' then -v else v)
  {
    assert s[..start] + s[start..] == s;
    TrimStartAfterSpace(s[..start], s[start..]);
    var body := s[from..];
    assert body == s[from..end] + s[end..];
    ParseDigitsAppend(s[from..end], s[end..]);
    if from > start {
      assert s[start..][1..] == body;
    } else {
      assert s[start..] == body;
    }
  }

  /** "16abc" reads as 16: whatever follows the digits is ignored. */
  lemma ParseIntTrailingText()
    ensures ParseInt("16abc") == Some(16)
  {
    ParseIntAt("16abc", 0, 0, 2);
    assert "16abc"[0..2] == "16" && "16"[..1] == "1";
    assert DigitsValue("16") == 16;
  }

  /** " -7 kHz" reads as -7: white space and a sign come before the digits. */
  lemma ParseIntSpaceAndSign()
    ensures ParseInt(" -7 kHz") == Some(-7)
  {
    ParseIntAt(" -7 kHz", 1, 2, 3);
    assert " -7 kHz"[2..3] == "7";
    assert DigitsValue("7") == 7;
  }

  /**
   * Without a digit after the white space and the sign, `parseInt` gives
   * `NaN`, here `None`.
   */
  lemma ParseIntNoDigits(ws: string, sign: string, rest: string)
    requires forall i :: 0 <= i < |ws| ==> IsSpace(ws[i])
    requires sign == "" || sign == "-" || sign == "+"
    requires |rest| > 0 ==> !IsDigit(rest[0]) && !IsSpace(rest[0])
    requires sign == "" && |rest| > 0 ==> rest[0] != '-' && rest[0] != '+'
    ensures ParseInt(ws + sign + rest).None?
  {
    var t := sign + rest;
    assert ws + sign + rest == ws + t;
    ParseIntAfterSpace(ws, t);
    assert TrimStart(t) == t;
    assert rest == (if sign == "" then t else t[1..]);
  }

  /** The character of a decimal digit. */
  function Digit(d: nat): (c: char)
    requires d < 10
    ensures IsDigit(c) && c as int - '0' as int == d
  {
    ('0' as int + d) as char
  }

  /** The plain decimal rendering of a natural number, as JavaScript prints it below 10^21. */
  function NatToString(n: nat): (s: string)
    ensures |s| > 0 && AllDigits(s)
    ensures DigitsValue(s) == n
    ensures s[0] == '0' ==> s == "0"
  {
    if n < 10 then [Digit(n)]
    else
      var s := NatToString(n / 10) + [Digit(n % 10)];
      assert s[..|s| - 1] == NatToString(n / 10);
      s
  }

  /** The decimal rendering of an integer, with a leading `-` when negative. */
  function IntToString(i: int): string {
    if i < 0 then "-" + NatToString(-i) else NatToString(i)
  }

  /** A string of digits is its own longest digit prefix. */
  lemma {:induction false} LeadingDigitsOfDigits(s: string)
    requires AllDigits(s)
    ensures LeadingDigits(s) == s
  {
    if |s| > 0 {
      LeadingDigitsOfDigits(s[1..]);
    }
  }

  /** `parseInt` reads back every natural number that `NatToString` prints. */
  lemma ParseIntNatToString(n: nat)
    ensures ParseInt(NatToString(n)) == Some(n)
  {
    var s := NatToString(n);
    assert !IsSpace(s[0]);
    assert TrimStart(s) == s;
    LeadingDigitsOfDigits(s);
  }
}

=== FILE: wav.dfy ===
/**
 * Framing raw PCM audio as a RIFF/WAVE file: a canonical 44-byte header
 * whose fields are little-endian integers at fixed offsets, followed by the
 * samples unchanged.
 *
 * The header is written the way a Node.js `Buffer` is: `writeUInt16LE` and
 * `writeUInt32LE` throw a range error when the value lies outside the field
 * and otherwise store its integer part, so a fractional byte rate or block
 * alignment (a sample size that is not a whole number of bytes) is truncated.
 * JavaScript numbers are modelled as `real`s where that matters.
 */
module Wav {
  import opened Wrappers
  import opened Mime

  type Byte = b: int | 0 <= b < 256

  const HEADER_SIZE := 44
  const MAX_UINT16 := 0xFFFF
  const MAX_UINT32 := 0xFFFF_FFFF
  /** Size of the `fmt ` chunk body and the PCM format tag. */
  const FMT_CHUNK_SIZE := 16
  const PCM_FORMAT := 1

  /** The range error a buffer write throws, named by the offset of the field being written. */
  datatype HeaderError = RangeError(offset: nat)

  /** The bytes of an ASCII string. */
  function Ascii(s: string): (r: seq<Byte>)
    requires forall i :: 0 <= i < |s| ==> s[i] as int < 128
    ensures |r| == |s|
  {
    seq(|s|, i requires 0 <= i < |s| => s[i] as int)
  }

  /** The two bytes `writeUInt16LE` stores, least significant first. */
  function LE16(v: int): (r: seq<Byte>)
    requires 0 <= v <= MAX_UINT16
    ensures |r| == 2
  {
    [v % 256, v / 256]
  }

  /** The four bytes `writeUInt32LE` stores, least significant first. */
  function LE32(v: int): (r: seq<Byte>)
    requires 0 <= v <= MAX_UINT32
    ensures |r| == 4
  {
    [v % 256, v / 256 % 256, v / 256 / 256 % 256, v / 256 / 256 / 256]
  }

  /** `readUInt16LE`. */
  function ReadUInt16LE(s: seq<Byte>, offset: nat): int
    requires offset + 2 <= |s|
  {
    s[offset] as int + 256 * (s[offset + 1] as int)
  }

  /** `readUInt32LE`. */
  function ReadUInt32LE(s: seq<Byte>, offset: nat): int
    requires offset + 4 <= |s|
  {
    s[offset] as int + 256 * (s[offset + 1] as int + 256 * (s[offset + 2] as int + 256 * (s[offset + 3] as int)))
  }

  /** Reading a 16-bit field back gives the value written. */
  lemma LE16RoundTrip(v: int, s: seq<Byte>, offset: nat)
    requires 0 <= v <= MAX_UINT16
    requires offset + 2 <= |s| && s[offset..offset + 2] == LE16(v)
    ensures ReadUInt16LE(s, offset) == v
  {
    assert s[offset] == v % 256 && s[offset + 1] == v / 256;
  }

  /** Reading a 32-bit field back gives the value written. */
  lemma LE32RoundTrip(v: int, s: seq<Byte>, offset: nat)
    requires 0 <= v <= MAX_UINT32
    requires offset + 4 <= |s| && s[offset..offset + 4] == LE32(v)
    ensures ReadUInt32LE(s, offset) == v
  {
    assert s[offset] == v % 256;
    assert s[offset + 1] == v / 256 % 256;
    assert s[offset + 2] == v / 256 / 256 % 256;
    assert s[offset + 3] == v / 256 / 256 / 256;
  }

  /** The byte rate as JavaScript computes it, `sampleRate * numChannels * bitsPerSample / 8`. */
  function ByteRateValue(f: AudioFormat): real {
    (f.sampleRate * f.numChannels * f.bitsPerSample) as real / 8.0
  }

  /** The block alignment as JavaScript computes it, `numChannels * bitsPerSample / 8`. */
  function BlockAlignValue(f: AudioFormat): real {
    (f.numChannels * f.bitsPerSample) as real / 8.0
  }

  /** The byte rate stored in the header: the integer part of `ByteRateValue`. */
  function ByteRate(f: AudioFormat): int {
    f.sampleRate * f.numChannels * f.bitsPerSample / 8
  }

  /** The block alignment stored in the header: the integer part of `BlockAlignValue`. */
  function BlockAlign(f: AudioFormat): int {
    f.numChannels * f.bitsPerSample / 8
  }

  /**
   * The offset of the first `fmt ` chunk field whose value does not fit its
   * slot, in the order the fields are written; `None` when every field fits.
   */
  function FmtRangeErrorOffset(f: AudioFormat): Option<nat> {
    if !(0 <= f.numChannels <= MAX_UINT16) then Some(22)
    else if !(0 <= f.sampleRate <= MAX_UINT32) then Some(24)
    else if !(0.0 <= ByteRateValue(f) <= MAX_UINT32 as real) then Some(28)
    else if !(0.0 <= BlockAlignValue(f) <= MAX_UINT16 as real) then Some(32)
    else if !(0 <= f.bitsPerSample <= MAX_UINT16) then Some(34)
    else None
  }

  /** The offset of the first header field that does not fit; the RIFF size at offset 4 is written first. */
  function RangeErrorOffset(dataLength: nat, f: AudioFormat): Option<nat> {
    if 36 + dataLength > MAX_UINT32 then Some(4) else FmtRangeErrorOffset(f)
  }

  /** Every header field fits its slot, so the header can be written. */
  predicate FitsHeader(dataLength: nat, f: AudioFormat) {
    RangeErrorOffset(dataLength, f).None?
  }

  /** The integer part of a non-negative `n / 8` computed in JavaScript is `n / 8` on integers. */
  lemma FloorOfEighth(n: int)
    requires n >= 0
    ensures ((n as real) / 8.0).Floor == n / 8
  {
    var q, r := n / 8, n % 8;
    assert n == 8 * q + r;
    assert (n as real) / 8.0 == q as real + (r as real) / 8.0;
  }

  /** A format whose fields fit has its derived fields in range. */
  lemma FieldsInRange(f: AudioFormat)
    requires FmtRangeErrorOffset(f).None?
    ensures 0 <= ByteRate(f) <= MAX_UINT32 && 0 <= BlockAlign(f) <= MAX_UINT16
    ensures ByteRateValue(f).Floor == ByteRate(f) && BlockAlignValue(f).Floor == BlockAlign(f)
  {
    FloorOfEighth(f.sampleRate * f.numChannels * f.bitsPerSample);
    FloorOfEighth(f.numChannels * f.bitsPerSample);
  }

  /** The `fmt ` chunk: tag, body size 16, PCM tag, then the format fields. */
  function FmtChunk(f: AudioFormat): (c: seq<Byte>)
    requires FmtRangeErrorOffset(f).None?
  {
    FieldsInRange(f);
    Ascii("fmt ") + LE32(FMT_CHUNK_SIZE) + LE16(PCM_FORMAT) + LE16(f.numChannels)
    + LE32(f.sampleRate) + LE32(ByteRate(f)) + LE16(BlockAlign(f)) + LE16(f.bitsPerSample)
  }

  /** The 44 header bytes `createWavHeader` produces for a format that fits. */
  function Header(dataLength: nat, f: AudioFormat): (h: seq<Byte>)
    requires FitsHeader(dataLength, f)
  {
    Ascii("RIFF") + LE32(36 + dataLength) + Ascii("WAVE") + FmtChunk(f) + Ascii("data") + LE32(dataLength)
  }

  /** What `convertToWav` returns for already decoded samples: the header then the samples, or the range error. */
  function WavBytes(raw: seq<Byte>, f: AudioFormat): Result<seq<Byte>, HeaderError> {
    match RangeErrorOffset(|raw|, f)
    case Some(offset) => Failure(RangeError(offset))
    case None => Success(Header(|raw|, f) + raw)
  }

  /** The header is 44 bytes with every field at its canonical offset. */
  lemma HeaderLayout(dataLength: nat, f: AudioFormat)
    requires FitsHeader(dataLength, f)
    ensures var h := Header(dataLength, f);
      && |h| == HEADER_SIZE
      && h[0..4] == Ascii("RIFF") && h[8..12] == Ascii("WAVE")
      && h[12..16] == Ascii("fmt ") && h[36..40] == Ascii("data")
      && h[4..8] == LE32(36 + dataLength) && h[16..20] == LE32(16) && h[20..22] == LE16(1)
      && h[22..24] == LE16(f.numChannels) && h[24..28] == LE32(f.sampleRate)
      && h[28..32] == LE32(ByteRate(f)) && h[32..34] == LE16(BlockAlign(f))
      && h[34..36] == LE16(f.bitsPerSample) && h[40..44] == LE32(dataLength)
  {
    FieldsInRange(f);
    var c := FmtChunk(f);
    assert c[0..4] == Ascii("fmt ") && c[4..8] == LE32(16) && c[8..10] == LE16(1);
    assert c[10..12] == LE16(f.numChannels) && c[12..16] == LE32(f.sampleRate);
    assert c[16..20] == LE32(ByteRate(f)) && c[20..22] == LE16(BlockAlign(f)) && c[22..24] == LE16(f.bitsPerSample);
  }

  /** The header fields as a reader decodes them from the first 44 bytes. */
  datatype HeaderFields = HeaderFields(riffSize: int, fmtSize: int, formatTag: int, format: AudioFormat,
                                       byteRate: int, blockAlign: int, dataSize: int)

  /** The four chunk tags are in place. */
  predicate HasTags(h: seq<Byte>)
    requires |h| == HEADER_SIZE
  {
    h[0..4] == Ascii("RIFF") && h[8..12] == Ascii("WAVE") && h[12..16] == Ascii("fmt ") && h[36..40] == Ascii("data")
  }

  /** The little-endian fields of a 44-byte header. */
  function Fields(h: seq<Byte>): HeaderFields
    requires |h| == HEADER_SIZE
  {
    HeaderFields(ReadUInt32LE(h, 4), ReadUInt32LE(h, 16), ReadUInt16LE(h, 20),
                 AudioFormat(ReadUInt16LE(h, 22), ReadUInt32LE(h, 24), ReadUInt16LE(h, 34)),
                 ReadUInt32LE(h, 28), ReadUInt16LE(h, 32), ReadUInt32LE(h, 40))
  }

  /** The fields of a WAV file as a reader sees them, with the samples that follow the header. */
  datatype WavFile = WavFile(format: AudioFormat, byteRate: int, blockAlign: int, data: seq<Byte>)

  /**
   * A reader of canonical 44-byte-header PCM WAV files: checks the chunk tags,
   * the `fmt ` size, the PCM tag and both lengths, and returns the fields.
   */
  function ReadWav(w: seq<Byte>): Option<WavFile> {
    if |w| < HEADER_SIZE then None
    else
      var h := w[..HEADER_SIZE];
      var fields := Fields(h);
      if !HasTags(h) || fields.fmtSize != FMT_CHUNK_SIZE || fields.formatTag != PCM_FORMAT
         || fields.dataSize != |w| - HEADER_SIZE || fields.riffSize != 36 + fields.dataSize then None
      else Some(WavFile(fields.format, fields.byteRate, fields.blockAlign, w[HEADER_SIZE..]))
  }

  /** The sizes and the format tag read back as written. */
  lemma FixedFieldsOfHeader(dataLength: nat, f: AudioFormat)
    requires FitsHeader(dataLength, f)
    ensures var h := Header(dataLength, f);
      && |h| == HEADER_SIZE && HasTags(h)
      && ReadUInt32LE(h, 4) == 36 + dataLength && ReadUInt32LE(h, 16) == FMT_CHUNK_SIZE
      && ReadUInt16LE(h, 20) == PCM_FORMAT && ReadUInt32LE(h, 40) == dataLength
  {
    var h := Header(dataLength, f);
    HeaderLayout(dataLength, f);
    LE32RoundTrip(36 + dataLength, h, 4);
    LE32RoundTrip(16, h, 16);
    LE16RoundTrip(1, h, 20);
    LE32RoundTrip(dataLength, h, 40);
  }

  /** The format fields read back as written. */
  lemma FormatFieldsOfHeader(dataLength: nat, f: AudioFormat)
    requires FitsHeader(dataLength, f)
    ensures var h := Header(dataLength, f);
      && |h| == HEADER_SIZE
      && ReadUInt16LE(h, 22) == f.numChannels && ReadUInt32LE(h, 24) == f.sampleRate
      && ReadUInt32LE(h, 28) == ByteRate(f) && ReadUInt16LE(h, 32) == BlockAlign(f)
      && ReadUInt16LE(h, 34) == f.bitsPerSample
  {
    var h := Header(dataLength, f);
    HeaderLayout(dataLength, f);
    FieldsInRange(f);
    LE16RoundTrip(f.numChannels, h, 22);
    LE32RoundTrip(f.sampleRate, h, 24);
    LE32RoundTrip(ByteRate(f), h, 28);
    LE16RoundTrip(BlockAlign(f), h, 32);
    LE16RoundTrip(f.bitsPerSample, h, 34);
  }

  /** Reading back a framed file yields the format, the derived rates and the samples exactly. */
  lemma ReadWavOfWavBytes(raw: seq<Byte>, f: AudioFormat)
    requires FitsHeader(|raw|, f)
    ensures ReadWav(Header(|raw|, f) + raw) == Some(WavFile(f, ByteRate(f), BlockAlign(f), raw))
  {
    var h := Header(|raw|, f);
    var w := h + raw;
    FixedFieldsOfHeader(|raw|, f);
    FormatFieldsOfHeader(|raw|, f);
    assert w[..HEADER_SIZE] == h;
    assert w[HEADER_SIZE..] == raw;
  }

  /** For whole-byte frames the stored rates are exact: `byteRate = R*C*B/8` and `blockAlign = C*B/8`. */
  lemma WholeByteRatesExact(f: AudioFormat)
    requires (f.numChannels * f.bitsPerSample) % 8 == 0
    ensures ByteRate(f) as real == ByteRateValue(f)
    ensures BlockAlign(f) as real == BlockAlignValue(f)
  {
    var k := f.numChannels * f.bitsPerSample / 8;
    assert f.numChannels * f.bitsPerSample == 8 * k;
    assert f.sampleRate * f.numChannels * f.bitsPerSample == 8 * (f.sampleRate * k) by {
      assert f.sampleRate * f.numChannels * f.bitsPerSample == f.sampleRate * (f.numChannels * f.bitsPerSample);
    }
  }

  /** All zero bytes, as `Buffer.alloc` fills a fresh buffer. */
  function Zeros(n: nat): seq<Byte>
  {
    seq(n, _ => 0)
  }

  /** `buf.write(s, offset)` for an ASCII string. */
  method WriteAscii(buf: array<Byte>, s: string, offset: nat)
    requires forall i :: 0 <= i < |s| ==> s[i] as int < 128
    requires offset + |s| <= buf.Length
    modifies buf
    ensures buf[..] == old(buf[..offset]) + Ascii(s) + old(buf[offset + |s|..])
  {
    for i := 0 to |s|
      invariant buf[..] == old(buf[..offset]) + Ascii(s)[..i] + old(buf[offset + i..])
    {
      buf[offset + i] := s[i] as int;
      assert Ascii(s)[..i + 1] == Ascii(s)[..i] + [s[i] as int];
    }
  }

  /** `buf.writeUInt16LE(value, offset)`: throws when the value is out of range, else stores its integer part. */
  method WriteUInt16LE(buf: array<Byte>, value: real, offset: nat) returns (ok: bool)
    requires offset + 2 <= buf.Length
    modifies buf
    ensures ok == (0.0 <= value <= MAX_UINT16 as real)
    ensures ok ==> buf[..] == old(buf[..offset]) + LE16(value.Floor) + old(buf[offset + 2..])
    ensures !ok ==> buf[..] == old(buf[..])
  {
    ok := 0.0 <= value <= MAX_UINT16 as real;
    if ok {
      var v := value.Floor;
      buf[offset] := v % 256;
      buf[offset + 1] := v / 256;
    }
  }

  /** `buf.writeUInt32LE(value, offset)`: throws when the value is out of range, else stores its integer part. */
  method WriteUInt32LE(buf: array<Byte>, value: real, offset: nat) returns (ok: bool)
    requires offset + 4 <= buf.Length
    modifies buf
    ensures ok == (0.0 <= value <= MAX_UINT32 as real)
    ensures ok ==> buf[..] == old(buf[..offset]) + LE32(value.Floor) + old(buf[offset + 4..])
    ensures !ok ==> buf[..] == old(buf[..])
  {
    ok := 0.0 <= value <= MAX_UINT32 as real;
    if ok {
      var v := value.Floor;
      buf[offset] := v % 256;
      buf[offset + 1] := v / 256 % 256;
      buf[offset + 2] := v / 256 / 256 % 256;
      buf[offset + 3] := v / 256 / 256 / 256;
    }
  }

  /** Writing `x` right after a written prefix `p` of a zero-filled buffer extends the prefix. */
  lemma ExtendPrefix(p: seq<Byte>, x: seq<Byte>, n: nat)
    requires |p| + |x| <= n
    ensures (p + Zeros(n - |p|))[..|p|] + x + (p + Zeros(n - |p|))[|p| + |x|..] == (p + x) + Zeros(n - |p + x|)
  {
    assert (p + Zeros(n - |p|))[..|p|] == p;
    assert (p + Zeros(n - |p|))[|p| + |x|..] == Zeros(n - |p + x|);
  }

  /** The header buffer holds the bytes `p` written so far, then zeros. */
  ghost predicate HeaderSoFar(buf: array<Byte>, p: seq<Byte>)
    reads buf
  {
    buf.Length == HEADER_SIZE && |p| <= HEADER_SIZE && buf[..] == p + Zeros(HEADER_SIZE - |p|)
  }

  /** `buf.write(s, offset)` on a header written up to `p`. */
  method AppendAscii(buf: array<Byte>, s: string, offset: nat, ghost p: seq<Byte>)
    requires forall i :: 0 <= i < |s| ==> s[i] as int < 128
    requires offset == |p| && HeaderSoFar(buf, p) && |p| + |s| <= HEADER_SIZE
    modifies buf
    ensures HeaderSoFar(buf, p + Ascii(s))
  {
    WriteAscii(buf, s, offset);
    ExtendPrefix(p, Ascii(s), HEADER_SIZE);
  }

  /** `buf.writeUInt16LE(value, offset)` on a header written up to `p`. */
  method AppendUInt16LE(buf: array<Byte>, value: real, offset: nat, ghost p: seq<Byte>) returns (ok: bool)
    requires offset == |p| && HeaderSoFar(buf, p) && |p| + 2 <= HEADER_SIZE
    modifies buf
    ensures ok == (0.0 <= value <= MAX_UINT16 as real)
    ensures ok ==> HeaderSoFar(buf, p + LE16(value.Floor))
  {
    ok := WriteUInt16LE(buf, value, offset);
    if ok {
      ExtendPrefix(p, LE16(value.Floor), HEADER_SIZE);
    }
  }

  /** `buf.writeUInt32LE(value, offset)` on a header written up to `p`. */
  method AppendUInt32LE(buf: array<Byte>, value: real, offset: nat, ghost p: seq<Byte>) returns (ok: bool)
    requires offset == |p| && HeaderSoFar(buf, p) && |p| + 4 <= HEADER_SIZE
    modifies buf
    ensures ok == (0.0 <= value <= MAX_UINT32 as real)
    ensures ok ==> HeaderSoFar(buf, p + LE32(value.Floor))
  {
    ok := WriteUInt32LE(buf, value, offset);
    if ok {
      ExtendPrefix(p, LE32(value.Floor), HEADER_SIZE);
    }
  }

  /** The `fmt ` chunk written field by field after `p`. */
  lemma FmtChunkAfter(p: seq<Byte>, f: AudioFormat)
    requires FmtRangeErrorOffset(f).None?
    requires 0 <= ByteRate(f) <= MAX_UINT32 && 0 <= BlockAlign(f) <= MAX_UINT16
    ensures p + Ascii("fmt ") + LE32(FMT_CHUNK_SIZE) + LE16(PCM_FORMAT) + LE16(f.numChannels)
      + LE32(f.sampleRate) + LE32(ByteRate(f)) + LE16(BlockAlign(f)) + LE16(f.bitsPerSample) == p + FmtChunk(f)
  {
  }

  /** The channel count and sample rate writes, at offsets 22 and 24. */
  method WriteChannelsAndRate(buffer: array<Byte>, f: AudioFormat, ghost q: seq<Byte>) returns (error: Option<nat>)
    requires |q| == 22 && HeaderSoFar(buffer, q)
    modifies buffer
    ensures error == if !(0 <= f.numChannels <= MAX_UINT16) then Some(22)
                     else if !(0 <= f.sampleRate <= MAX_UINT32) then Some(24)
                     else None
    ensures error.None? ==> HeaderSoFar(buffer, q + LE16(f.numChannels) + LE32(f.sampleRate))
  {
    var ok := AppendUInt16LE(buffer, f.numChannels as real, 22, q);
    if !ok { return Some(22); }
    ok := AppendUInt32LE(buffer, f.sampleRate as real, 24, q + LE16(f.numChannels));
    if !ok { return Some(24); }
    return None;
  }

  /** The byte rate, block alignment and sample width writes, at offsets 28, 32 and 34. */
  method WriteDerivedFields(buffer: array<Byte>, f: AudioFormat, byteRate: real, blockAlign: real, ghost q: seq<Byte>)
    returns (error: Option<nat>)
    requires |q| == 28 && HeaderSoFar(buffer, q)
    requires byteRate == ByteRateValue(f) && blockAlign == BlockAlignValue(f)
    modifies buffer
    ensures error == if !(0.0 <= byteRate <= MAX_UINT32 as real) then Some(28)
                     else if !(0.0 <= blockAlign <= MAX_UINT16 as real) then Some(32)
                     else if !(0 <= f.bitsPerSample <= MAX_UINT16) then Some(34)
                     else None
    ensures error.None? ==> 0 <= ByteRate(f) <= MAX_UINT32 && 0 <= BlockAlign(f) <= MAX_UINT16
    ensures error.None? ==> HeaderSoFar(buffer, q + LE32(ByteRate(f)) + LE16(BlockAlign(f)) + LE16(f.bitsPerSample))
  {
    var ok := AppendUInt32LE(buffer, byteRate, 28, q);
    if !ok { return Some(28); }
    FloorOfEighth(f.sampleRate * f.numChannels * f.bitsPerSample);
    ok := AppendUInt16LE(buffer, blockAlign, 32, q + LE32(ByteRate(f)));
    if !ok { return Some(32); }
    FloorOfEighth(f.numChannels * f.bitsPerSample);
    ok := AppendUInt16LE(buffer, f.bitsPerSample as real, 34, q + LE32(ByteRate(f)) + LE16(BlockAlign(f)));
    if !ok { return Some(34); }
    return None;
  }

  /**
   * The `fmt ` chunk writes of `createWavHeader`, at offsets 12 to 35, with
   * the byte rate and block alignment computed beforehand; the error is the
   * offset of the write that throws.
   */
  method WriteFmtChunk(buffer: array<Byte>, f: AudioFormat, byteRate: real, blockAlign: real, ghost p: seq<Byte>)
    returns (error: Option<nat>)
    requires |p| == 12 && HeaderSoFar(buffer, p)
    requires byteRate == ByteRateValue(f) && blockAlign == BlockAlignValue(f)
    modifies buffer
    ensures error == FmtRangeErrorOffset(f)
    ensures error.None? ==> HeaderSoFar(buffer, p + FmtChunk(f))
  {
    AppendAscii(buffer, "fmt ", 12, p);
    ghost var q := p + Ascii("fmt ");
    var ok := AppendUInt32LE(buffer, FMT_CHUNK_SIZE as real, 16, q);
    q := q + LE32(FMT_CHUNK_SIZE);
    ok := AppendUInt16LE(buffer, PCM_FORMAT as real, 20, q);
    q := q + LE16(PCM_FORMAT);
    error := WriteChannelsAndRate(buffer, f, q);
    if error.Some? { return; }
    q := q + LE16(f.numChannels) + LE32(f.sampleRate);
    error := WriteDerivedFields(buffer, f, byteRate, blockAlign, q);
    if error.Some? { return; }
    FmtChunkAfter(p, f);
  }

  /**
   * `createWavHeader`: compute the derived fields, allocate a zeroed 44-byte
   * buffer and write the fields in order; the first write whose value does
   * not fit throws.
   */
  method CreateWavHeader(dataLength: nat, audioOptions: AudioFormat) returns (r: Result<array<Byte>, HeaderError>)
    ensures r.Failure? <==> !FitsHeader(dataLength, audioOptions)
    ensures r.Failure? ==> RangeErrorOffset(dataLength, audioOptions) == Some(r.error.offset)
    ensures r.Success? ==> fresh(r.value) && FitsHeader(dataLength, audioOptions)
                           && r.value[..] == Header(dataLength, audioOptions)
  {
    var f := audioOptions;
    var byteRate := ByteRateValue(f);
    var blockAlign := BlockAlignValue(f);
    var buffer := new Byte[HEADER_SIZE](_ => 0);
    ghost var p: seq<Byte> := [];
    assert buffer[..] == p + Zeros(HEADER_SIZE);

    AppendAscii(buffer, "RIFF", 0, p);
    assert p + Ascii("RIFF") == Ascii("RIFF");
    p := Ascii("RIFF");
    var ok := AppendUInt32LE(buffer, (36 + dataLength) as real, 4, p);
    if !ok { return Failure(RangeError(4)); }
    p := p + LE32(36 + dataLength);
    AppendAscii(buffer, "WAVE", 8, p);
    p := p + Ascii("WAVE");

    var error := WriteFmtChunk(buffer, f, byteRate, blockAlign, p);
    if error.Some? { return Failure(RangeError(error.value)); }
    p := p + FmtChunk(f);

    AppendAscii(buffer, "data", 36, p);
    p := p + Ascii("data");
    ok := AppendUInt32LE(buffer, dataLength as real, 40, p);
    p := p + LE32(dataLength);

    assert buffer[..] == p;
    return Success(buffer);
  }

  /**
   * `convertToWav` on already decoded samples: parse the content type, write
   * the header for the sample count, and append the samples.
   */
  method ConvertToWav(raw: seq<Byte>, mimeType: Option<string>) returns (r: Result<seq<Byte>, HeaderError>)
    ensures r == WavBytes(raw, MimeFormat(mimeType))
    ensures r.Success? ==> |r.value| == HEADER_SIZE + |raw| && r.value[HEADER_SIZE..] == raw
    ensures r.Success? ==> ReadWav(r.value) == Some(WavFile(MimeFormat(mimeType), ByteRate(MimeFormat(mimeType)),
                                                            BlockAlign(MimeFormat(mimeType)), raw))
  {
    var audioOptions := ParseAudioMimeType(mimeType);
    var header := CreateWavHeader(|raw|, audioOptions);
    match header
    case Failure(e) =>
      r := Failure(e);
    case Success(buffer) =>
      HeaderLayout(|raw|, audioOptions);
      ReadWavOfWavBytes(raw, audioOptions);
      r := Success(buffer[..] + raw);
  }
}

=== FILE: wrappers.dfy ===
/** Optional values and results with an error, as the rest of the model uses them. */
module Wrappers {

  /** A value that may be missing (JavaScript `null` / `undefined`). */
  datatype Option<+T> = None | Some(value: T) {
    /** The carried value, or `default` when there is none. */
    function GetOr(default: T): T {
      match this
      case Some(v) => v
      case None => default
    }
  }

  /** The outcome of an operation that may throw: a value or the error it throws. */
  datatype Result<+R, +E> = Success(value: R) | Failure(error: E)
}
